=== FILE: README.md ===
# A model of the scripts of tandyx.github.io

This project is a Dafny model of the behaviour of the portfolio site's browser
scripts, with proofs about that model:

- **the colour mode.** The `Theme` class, `main`'s landing-page rule and the
  navbar's mode toggle decide the `data-mode` attribute of the page root and
  the "theme" entry of sessionStorage.
- **`fetchCatch`.** It is a read-through lookup in localStorage or
  sessionStorage in front of `fetch`.
- **string helpers.** These are `getCookie`, the no-expiry `setCookie`,
  `toTitleCase`, the `.html` rewrite of `removeHTMLFrom` and the
  `digitToWord` table.
- **code blocks.** The language of a `<pre>` is found through `langMap`.
  `loadCodeBlock` appends a `<code>` node and at most one highlight.js
  script per language.
- **the navbar.** This covers which menu link is highlighted, the `"#"` rewrite
  of the link to the current page, and the menu checkbox under outside clicks
  and resizes.
- **project cards.** `createBar` stacks the language bars with a z-index
  countdown over a parsed base level. `addProjectEvents` flips the `.norepo`
  visibility and toggles a card when its content is clicked. The URL fragment
  opens or clicks a card.

The model is organised as follows:

- The DOM, the storages, `document.cookie`, the media queries and the
  network are plain values or small classes.
  - `ThemeState.Root` holds the page root and sessionStorage.
  - `Navbar.MenuToggle` is the checkbox.
  - `CodeBlock.PreNode`, `CodeBlock.Head` and `CodeBlock.CodeNode` are the
    elements `loadCodeBlock` changes.
  - `Project.BarContainer`, `Project.ProjectCard` and `Project.Document`
    are the elements the project script changes.
- A Theme object is never changed after construction, so it is a value.
- Every JavaScript falsy string (`undefined`, `null`, `""`) is written `""`.
- `JsStrings` gives the members of `String.prototype` and `Number` that the
  scripts rely on. `replace` with a string pattern replaces only the first
  occurrence, and `split` is modelled for a one-character separator.
- The code is followed where it differs from its own doc comments:
  - The JSDoc of `fetchCatch` (src/js/index.js:535) says it caches fetch
    requests in local or session storage, but the function never writes to
    either store. So a second identical call goes to the network again:
    `FetchCache.MissStaysMiss`.
  - The JSDoc of the Theme constructor (src/js/index.js:11-12) types its
    argument as `"dark" | "light"`, but the constructor rejects only falsy
    names. `"blue"` is accepted, and reversing it twice gives `"light"`:
    `ThemeState.ReverseTwiceOther`.

## Model

Some members are vocabulary with no contract of their own; the rows below state them through the members that use them:
- `JsStrings.StartsWith`, `JsStrings.EndsWith` and `JsStrings.Join` are `startsWith`, `endsWith` and `join`. `Join` is pinned by `JsStrings.JoinSplit` and `JsStrings.SplitJoin`.
- `TextUtils.HostOfHref` and `TextUtils.Includes` are the host test of src/js/index.js:161, whose effect `TextUtils.RemoveHtmlFrom` and `TextUtils.OnLoadRewrite` state.
- `CodeBlock.Head.HasSrc` is `checkSrcInHead` (src/js/index.js:429-435), whose effect `CodeBlock.LoadCodeBlock` states.

| member | source | states |
|---|---|---|
| ThemeState.NewTheme | src/js/index.js:14-17 | construction succeeds exactly for a non-empty name, and keeps that name |
| ThemeState.GetItem | src/js/index.js:62 | `sessionStorage.getItem`: the stored value, or "" (null) for a missing key |
| ThemeState.Opposite | src/js/index.js:85 | "light" exactly for "dark"; "dark" for every other name |
| ThemeState.FirstMatch | src/js/index.js:26-32 | the theme of the first scheme whose media query matches; undefined ("") when none matches |
| ThemeState.SystemTheme | src/js/index.js:25-33 | "dark" iff the dark query matches; "light" iff only the light one matches; undefined when neither matches |
| ThemeState.ActiveTheme | src/js/index.js:38-40 | the `data-mode` attribute when set, else the system theme |
| ThemeState.IconFor | src/js/index.js:45-54 | the moon glyph U+F186 exactly for "dark", the sun U+F185 otherwise |
| ThemeState.Icon | src/js/index.js:52-54 | the instance getter gives the moon exactly when its own theme is "dark", and the sun otherwise |
| ThemeState.ActiveIcon | src/js/index.js:45-47 | the static getter gives the moon exactly when the active theme is "dark", and the sun otherwise |
| ThemeState.FirstNonEmpty | src/js/index.js:60-65 | the `\|\|` chain: "" iff every candidate is falsy; otherwise the first truthy candidate, with all earlier ones falsy |
| ThemeState.FirstNonEmptyAt | src/js/index.js:60-65 | the candidate at k wins when every earlier candidate is falsy |
| ThemeState.FromExisting | src/js/index.js:59-66 | never fails and never gives ""; priority is data-mode, then the saved "theme", then the system theme, then "light" |
| ThemeState.Reversed | src/js/index.js:83-86 | fails exactly for a falsy theme; otherwise gives the opposite theme |
| ThemeState.ReverseGuardNeverFires | src/js/index.js:14-16 | every Theme the constructor accepts can be reversed |
| ThemeState.ReverseTwice | src/js/index.js:83-86 | two reversals restore "dark" and "light" |
| ThemeState.ReverseTwiceOther | src/js/index.js:83-86 | any other accepted name comes back as "light" after two reversals, not as itself |
| ThemeState.FromExistingAfterSet | src/js/index.js:59-77 | after `set`, saved or not, `fromExisting` finds the theme that was set |
| ThemeState.AfterSet | src/js/index.js:73-77 | data-mode becomes the theme; with `save` the "theme" entry holds it and every other entry is kept, with no other key added; without `save` sessionStorage is exactly as before; the media queries are untouched |
| ThemeState.AfterMain | src/js/index.js:117-122 | sessionStorage and the media queries are untouched; data-mode is never left empty; it is "dark" on the landing paths, and a data-mode already set elsewhere is kept |
| ThemeState.SavedThemeBeatsSystem | src/js/index.js:59-66 | with data-mode unset, a saved theme wins over any system preference |
| ThemeState.MainRule | src/js/index.js:117-122 | `main` leaves sessionStorage alone; it gives "dark" on "/" and "/index.html", else the resolved theme; data-mode is never left empty |
| ThemeState.MainIdempotent | src/js/index.js:117-122 | running `main` twice on a page is the same as running it once |
| ThemeState.Root.Set | src/js/index.js:73-77 | data-mode becomes the theme; "theme" is written only when `save` holds; nothing else changes; the same Theme is returned |
| ThemeState.Root.Reverse | src/js/index.js:83-86 | gives the reversed Theme and sets it on the page; on the guard's error the page is unchanged |
| ThemeState.Root.ApplyMain | src/js/index.js:117-122 | the page afterwards is the page `main`'s rule describes |
| FetchCache.CacheStore | src/js/index.js:546 | localStorage exactly for "local", sessionStorage for any other value |
| FetchCache.Cached | src/js/index.js:547 | `getItem(url)` on the store `cache` selects: the stored text, or "" (null) when there is none |
| FetchCache.ParseJson | src/js/index.js:548 | succeeds exactly on JSON text, with the value of that text |
| FetchCache.StatusError | src/js/index.js:550 | the message is the status, then ": ", then exactly the response body text |
| FetchCache.FetchCatch | src/js/index.js:544-556 | stores are never written; the network is skipped iff `cache` is truthy and a non-empty entry exists, and then the result is that entry's parse; a rejected `fetch` rejects with the same error; a non-ok response rejects with the status-and-body message; an ok response on a miss resolves to the JSON of its body when the body is JSON, and otherwise rejects because the body was already read |
| FetchCache.HitIgnoresNetwork | src/js/index.js:547-548 | on a hit the outcome does not depend on the network |
| FetchCache.OnlySelectedStoreMatters | src/js/index.js:546-547 | the store that `cache` does not select plays no part in the result |
| FetchCache.MissStaysMiss | src/js/index.js:544-556 | a call that went to the network leaves the stores as they were, so the same call goes to the network again and fails when `fetch` rejects or answers non-ok |
| FetchCache.NotFoundRejects | src/js/index.js:549-550 | a 404 on a miss rejects with "404: …" and writes nothing |
| JsStrings.IndexOf | src/js/index.js:374 | -1 iff the pattern does not occur; otherwise the first position where it occurs |
| JsStrings.ReplaceFirst | src/js/index.js:162-165 | unchanged without an occurrence; otherwise only the first occurrence is replaced and the rest is kept |
| JsStrings.Split | src/js/index.js:370 | at least one piece, and no piece contains the separator |
| JsStrings.JoinSplit | src/js/index.js:389-393 | joining the pieces of a split with the separator gives back the string |
| JsStrings.SplitJoin | src/js/index.js:389-393 | splitting a join of separator-free pieces gives back the pieces |
| JsStrings.SplitAppend | src/js/components/navbar.js:68 | splitting at a separator splits the two sides independently |
| JsStrings.ToLower | src/js/index.js:388 | same length; each character is lower-cased (ASCII) |
| JsStrings.ToUpper | src/js/index.js:391 | same length; each character is upper-cased (ASCII) |
| JsStrings.LowerChar | src/js/index.js:388 | an ASCII capital moves 32 code points down to its small letter; every other character is kept |
| JsStrings.UpperChar | src/js/index.js:391 | an ASCII small letter moves 32 code points up to its capital; every other character is kept |
| JsStrings.NatToString | src/js/index.js:550 | a non-empty string of decimal digits, without leading zeros |
| JsStrings.NatToStringRoundTrip | src/js/index.js:550 | reading back the decimal rendering of n gives n |
| JsStrings.ParseNumber | src/js/project.js:64-73 | `Number("")` is 0; a digit string is its value; "-" or "+" before digits negates or keeps the value; every other string is NaN, and exactly those |
| JsStrings.NumberOfNatString | src/js/project.js:64-73 | `Number` of the rendering of n is n |
| JsStrings.NumberOfNegativeString | src/js/project.js:64-73 | `Number` of "-" followed by the rendering of n is -n, as a negative base z-index reads |
| TextUtils.TrimLeadingSpaces | src/js/index.js:371-373 | removes exactly the leading spaces: the result is a suffix, and does not start with a space |
| TextUtils.CookieValue | src/js/index.js:368-379 | a non-empty value is exactly what follows `name=` in one of the space-trimmed segments |
| TextUtils.SkipSpaces | src/js/index.js:371-373 | the inner loop removes exactly the segment's leading spaces |
| TextUtils.GetCookie | src/js/index.js:368-379 | the value after `name=` in the first space-trimmed `;` segment that starts with it, else "" |
| TextUtils.ScanSegments | src/js/index.js:370-378 | the `for` loop over the segments returns the value of the first matching one, else "" |
| TextUtils.CookieValueFirstMatch | src/js/index.js:374-376 | the first matching segment decides the value |
| TextUtils.CookieValueNoMatch | src/js/index.js:378 | with no matching segment the value is "" |
| TextUtils.LongerNameDoesNotMatch | src/js/index.js:369-374 | a cookie whose name only starts with `name` is not matched, so "user" does not read "username=…" |
| TextUtils.SessionCookie | src/js/index.js:352-356 | the cookie string without expiry ends in ";path=/" |
| TextUtils.SessionCookieRoundTrip | src/js/index.js:352-379 | `getCookie` reads back what `setCookie` wrote, for a non-empty name and a value without ";", "%" or tabs, neither starting nor ending with a space (blanks RFC 6265 section 5.2 trims) |
| TextUtils.Capitalize | src/js/index.js:391 | same length; the first character is upper-cased (through `ToUpper` of the one-character head) and the rest kept |
| TextUtils.CapitalizeAll | src/js/index.js:390-392 | each piece is capitalized |
| TextUtils.ToTitleCase | src/js/index.js:386-394 | lower-case, split, capitalize and join equals the character-by-character reading: separators become spaces and the characters that open a piece are upper-cased; the length is kept |
| TextUtils.ToTitleCaseAt | src/js/index.js:386-394 | same length; each separator becomes a space; the first character and each character after a separator are upper-cased; the others are lower-cased |
| TextUtils.SeparatorBecomesSpace | src/js/index.js:386-394 | with a separator that lower-casing keeps, each separator of the input becomes a space |
| TextUtils.UpperCaseSeparatorNeverSplits | src/js/index.js:386-394 | an upper-case separator never matches after lower-casing, so no space is inserted |
| TextUtils.NoHtmlUnchanged | src/js/index.js:159-168 | an href without ".html" is left as it is |
| TextUtils.StripHtml | src/js/index.js:162-166 | an href ending in "index.html" is 10 characters shorter; any other href either loses 5 characters (one ".html") or is left as it is |
| TextUtils.StripHtmlRemovesFirst | src/js/index.js:163-166 | an href ending in "index.html" loses its FIRST "index.html"; any other href loses its first ".html" |
| TextUtils.StripPageExtension | src/js/index.js:165 | a page link with one ".html" loses exactly that ".html" |
| TextUtils.StripIndexPage | src/js/index.js:163-164 | a directory index link loses its "index.html" |
| TextUtils.RemoveHtmlFrom | src/js/index.js:159-168 | every href is rewritten, because the host test reads `.host` off a string and never skips |
| TextUtils.RewriteHref | src/js/index.js:161-166 | one pass of the loop rewrites the href at its index and leaves every other href alone |
| TextUtils.OnLoadRewrite | src/js/index.js:91-95 | no rewrite on a local host name; otherwise every href is rewritten |
| TextUtils.DigitToWord | src/js/index.js:98-109 | a word exactly for 0..9, never an empty one |
| TextUtils.WordToDigit | src/js/index.js:98-109 | the position of a word in the table, or none when it is not in the table |
| TextUtils.DigitWordsDistinct | src/js/index.js:98-109 | no word appears twice in the table |
| TextUtils.DigitWordRoundTrip | src/js/index.js:98-109 | the table is a bijection between 0..9 and its words |
| CodeBlock.LangMap | src/js/codeblock.js:10-13 | a language exactly for "js" (javascript) and "ps1" (powershell) |
| CodeBlock.ResolveLanguage | src/js/codeblock.js:21-23 | `data-language` when set; otherwise only "", "javascript" or "powershell" |
| CodeBlock.ResolveByExtension | src/js/codeblock.js:23 | with one ".", the extension is looked up |
| CodeBlock.ResolveBySecondPiece | src/js/codeblock.js:23 | with more dots, the piece between the first two is looked up, not the extension |
| CodeBlock.MinifiedAndRelativeNamesMiss | src/js/codeblock.js:23 | "a.min.js" and "./x.js" get no language |
| CodeBlock.ResolveWithoutDot | src/js/codeblock.js:23 | a `data-src` without "." has no second piece, so no language |
| CodeBlock.ScriptUrl | src/js/codeblock.js:66 | the highlight.js 11.9.0 CDN prefix, then exactly the language, then ".min.js" |
| CodeBlock.ScriptUrlInjective | src/js/codeblock.js:66-67 | different languages load different modules |
| CodeBlock.CodeNode.constructor | src/js/codeblock.js:56-60 | the code node holds the text and has classes hljs and code-font |
| CodeBlock.Head.ScriptLoaded | src/js/codeblock.js:70-73 | when a script loads, its code node gains the language class and nothing else |
| CodeBlock.LoadCodeBlock | src/js/codeblock.js:50-79 | missing or non-PRE node: nothing is appended and the result is null; otherwise one new code node is appended and the pre node is returned; a script is added only when its src is not in the head; the language class is added at once exactly when the script was already there |
| CodeBlock.RenderPre | src/js/codeblock.js:20-24 | the resolved language decides the one script added to the head |
| CodeBlock.TwoBlocksOneScript | src/js/codeblock.js:66-77 | two blocks in one language add one script; the first block waits for it to load, the second gets the class at once |
| Navbar.ActivePrefix | src/js/components/navbar.js:66-72 | the prefix a link claims is never empty |
| Navbar.IsActiveLink | src/js/components/navbar.js:66-70 | since every prefix is non-empty, no link is highlighted on an empty path, and a highlighted path starts like the prefix |
| Navbar.PagePrefix | src/js/components/navbar.js:66-72 | "<stem>.<ext>" with no "index" in the stem claims the stem |
| Navbar.IndexPrefix | src/js/components/navbar.js:66-72 | "<dir>index.<ext>" claims the directory, or "/" for the site root |
| Navbar.AboutPrefix | src/js/components/navbar.js:25 | "/about.html" claims "/about" |
| Navbar.ProjectsPrefix | src/js/components/navbar.js:26 | "/projects/index.html" claims "/projects/" |
| Navbar.EtcPrefix | src/js/components/navbar.js:27 | "/etc/index.html" claims "/etc/" |
| Navbar.OwnPageIsActive | src/js/components/navbar.js:66-72 | a page link is highlighted iff the current path starts with its stem |
| Navbar.RootIndexClaimsEverything | src/js/components/navbar.js:66-72 | a link to "/index.html" would be highlighted on every page |
| Navbar.MarkAnchor | src/js/components/navbar.js:65-72 | an anchor's href only ever becomes "#", and its colour only ever becomes the accent colour |
| Navbar.CurrentPageLink | src/js/components/navbar.js:65-72 | the link to the current URL becomes "#", and is highlighted when the current path starts with its own prefix |
| Navbar.CurrentPageLinkOutsidePrefix | src/js/components/navbar.js:65-72 | the link to the current URL becomes "#" but keeps its colour when the current path does not start with its own prefix |
| Navbar.OtherLink | src/js/components/navbar.js:65-72 | any other link keeps its href and is highlighted iff the current path lies under its prefix |
| Navbar.HighlightMenu | src/js/components/navbar.js:63-74 | every anchor gets its own rewrite, and only that |
| Navbar.MarkAt | src/js/components/navbar.js:64-73 | one pass of the loop marks the anchor at its index and leaves the others alone |
| Navbar.CheckedAfterClick | src/js/components/navbar.js:38-42 | a click outside `.nav` unchecks the menu; a click inside leaves it as it is |
| Navbar.CheckedAfterResize | src/js/components/navbar.js:77-81 | wider than 768 the menu is unchecked; otherwise it is left as it is |
| Navbar.HandlersOnlyClose | src/js/components/navbar.js:38-81 | neither handler opens the menu, and each is idempotent |
| Navbar.MenuToggle.Click | src/js/components/navbar.js:79 | `click()` flips the checkbox |
| Navbar.OnDocumentClick | src/js/components/navbar.js:38-42 | the checkbox ends as the click rule says |
| Navbar.OnResize | src/js/components/navbar.js:77-81 | the checkbox ends as the resize rule says |
| Navbar.InitialGlyph | src/js/components/navbar.js:51 | with no data-mode set and the dark query matching, the toggle starts with the moon |
| Navbar.ToggleFlips | src/js/components/navbar.js:52-61 | a click flips "dark"/"light" and saves the new theme; two clicks bring back the starting theme |
| Navbar.AfterToggle | src/js/components/navbar.js:52-61 | data-mode becomes the opposite of the existing theme, the "theme" entry holds it, and the media queries are untouched |
| Navbar.OnModeToggleClick | src/js/components/navbar.js:52-61 | the page moves one toggle step, and the glyph shown is the one for the new active theme |
| Project.BaseZIndex | src/js/project.js:61-73 | a missing style gives base 0 |
| Project.AutoIsZero | src/js/project.js:64-73 | "auto" gives base 0 |
| Project.PixelsAreNumbers | src/js/project.js:64-73 | "<digits>px" and "<digits>" give the number the digits spell |
| Project.TwelvePixels | src/js/project.js:64-73 | "12px" gives base 12 |
| Project.BarsFor | src/js/project.js:74-88 | exactly one bar per language |
| Project.OneBarPerLanguage | src/js/project.js:75-80 | each bar has its language's width and the classes `<clean>-bg` and `bar` |
| Project.StackingOrder | src/js/project.js:61-83 | bar i is at level n+b-i, so levels strictly decrease and the last bar is at b+1; a NaN base leaves every level NaN |
| Project.BarsTile | src/js/project.js:74-81 | the first bar starts at 0; each bar starts where the previous one ends; the last ends at the total width |
| Project.CreateBar | src/js/project.js:57-89 | the container gains exactly the bars for the languages over the parsed base |
| Project.AppendBars | src/js/project.js:74-88 | the countdown loop appends exactly those bars |
| Project.FlipVisibility | src/js/project.js:105-108 | "visible" iff the visibility was "hidden"; "hidden" otherwise |
| Project.FlipTwice | src/js/project.js:105-108 | two flips restore "hidden" and "visible", and turn any other value into "visible" |
| Project.Listening | src/js/project.js:110-113 | every content except SUMMARY elements gets a listener |
| Project.ClickToggles | src/js/project.js:115-118 | a click on a link never toggles; without a selection inside the content, every other click does |
| Project.OpenAfterClick | src/js/project.js:114-120 | `open` flips iff the content listens and the click is neither on a link nor inside a selection |
| Project.ClickTwiceRestores | src/js/project.js:110-120 | two identical clicks restore `open`; SUMMARY contents and links never move it |
| Project.ProjectCard.ContentClick | src/js/project.js:114-120 | the card ends as the click rule says, and nothing else changes |
| Project.AddProjectEvents | src/js/project.js:96-122 | a missing card is left alone; otherwise every `.norepo` visibility is flipped, every non-SUMMARY content listens, and `open` is kept |
| Project.FragmentId | src/js/project.js:18 | the id is the fragment without its "#" |
| Project.Lookup | src/js/project.js:18-19 | an element is found exactly for a non-empty id that exists, and it is the element with that id |
| Project.AfterLoadHash | src/js/project.js:17-26 | a DETAILS element is opened; any other element is clicked once; no other element changes; a missing id changes nothing |
| Project.LoadHashOpens | src/js/project.js:17-26 | the named DETAILS ends open, and applying the rule again changes nothing |
| Project.AfterHashChange | src/js/project.js:46-48 | a TypeError iff no element has the id; otherwise that element is clicked once and no other changes |
| Project.HashChangeDoesNotOpen | src/js/project.js:46-48 | a later fragment change only clicks the element: `open` is untouched |
| Project.Document.OnLoadHash | src/js/project.js:17-26 | the elements end as the load rule says |
| Project.Document.OnHashChange | src/js/project.js:46-48 | the elements end as the hashchange rule says; on the TypeError nothing changes |

## Left out

- Network I/O is not modelled.
  - `fetch`, `resp.json()` and `resp.text()` are one abstract `Response`.
  - Whether a text is JSON is a predicate given by the caller.
  - The text fallback of `fetchCatch` is modelled, for a response with a body, as the rejection it gives: `json()` has already consumed the body (WHATWG Fetch, "consume body").
  - Responses without a body (a 204 or 205, or a HEAD request) are not modelled. For them `json()` rejects without using the body, so the fallback `text()` resolves to "" and so does `fetchCatch`.
  - A `fetch` that rejects (a transport failure, say) is modelled by its error message only.
  - `cache` is `""` when a caller passes a falsy value, and such a call never hits. A caller that omits `cache` gets the default `"session"`, which can hit.
  - The code loading in `codeblock.js` and `getRepoLangs` (src/js/index.js:177-198) are left out. The languages `createBar` receives are a parameter.
- `decodeURIComponent` in `getCookie` is left out. `TextUtils.GetCookie` takes the decoded cookie string.
- The browser's cookie jar is left out: `document.cookie` is modelled as the last string assigned to it, so its trimming, its other cookies and its dropping of the `path` attribute on read are not captured.
- The `Date`-based expiry branch of `setCookie` (src/js/index.js:357-359) needs a clock. It is left out.
- Case mapping is ASCII only.
- `toTitleCase` is modelled for a one-character separator. Its default `"_"` is one such separator.
- `ParseNumber` reads only optionally signed decimal digits, with "" as 0. `Number`'s other forms are all treated as NaN: surrounding white space, fractions, exponents, hex, "Infinity".
- `langMap` is an object literal, so a key such as "constructor" reaches `Object.prototype`. `CodeBlock.LangMap` gives no language for such keys.
- highlight.js (`highlightElement`, `addPlugin`, `CopyButtonPlugin`) and the `window.onload` loop over all `<pre>` nodes are left out. So is the order in which asynchronous callbacks run.
- The navbar's click handler calls `reverse(localStorage, callback)` and reads `themeCssMap`, `removeFileFromHead` and `addCssFile`, none of which exist in index.js. This is modelled as index.js's `reverse(save)` with a truthy `save`. The callback is never called.
- Bar widths are `real` (idealised arithmetic), not floating point. The `toFixed` tooltip is left out. `cleanCssGithubLang` is not part of this model and is a parameter.
- `loadCodeBlock` (src/js/codeblock.js:51) and `addProjectEvents` (src/js/project.js:98-101) accept either an element or an element id. The model takes the element, or null for an id that names no element; the `getElementById` lookup itself is left out.
- `createBar` is modelled on a container element. Looking it up by id, and the null container that lookup can give, are left out.
- `getStyle`, `selectionInElement` and `checkParent` are inputs: `getStyle`'s string, and the booleans of a `ClickEvent`.
- A `click()` on a non-DETAILS element is counted, not dispatched. What that click does to the page is not modelled.
- `AddProjectEvents` records which contents listen as a set, so a second call on the same card is not modelled as adding a second listener.
- The WebKit margin tweak in project.js (lines 36-44) needs a user-agent parser. It is left out.
- `main`'s scroll listener, `addCopyEvent`, Plotly charts, `getUserLanguages` and the CSSOM helpers are DOM and layout glue with no state of the model's. They are left out.
- src/js/about.js, src/js/project_init.js, src/js/components/footer.js and src/js/components/hr-container.js are not part of this model.
- `Navbar.ActivePrefix` states only that the prefix is non-empty. The full rule is stated by `Navbar.PagePrefix` and `Navbar.IndexPrefix`, for links whose stem has no "." and whose "index" is only the file name.
- `TextUtils.StripPageExtension` and `TextUtils.StripIndexPage` are stated for hrefs with a single ".html". `TextUtils.StripHtmlRemovesFirst` covers the general case.

=== FILE: codeblock.dfy ===
/**
 * Code blocks (src/js/codeblock.js): which highlight.js language a `<pre>`
 * gets, and what `loadCodeBlock` adds to the page.
 */
module CodeBlock {
  import opened JsStrings

  /** Where the highlight.js 11.9.0 language modules are loaded from. */
  const CdnPrefix := "https://cdnjs.cloudflare.com/ajax/libs/highlight.js/11.9.0/languages/"
  const ModuleSuffix := ".min.js"

  /** The classes every code node gets. */
  const BaseClasses: set<string> := {"hljs", "code-font"}

  /** `langMap[key]`, with `""` for undefined. */
  function LangMap(key: string): (r: string)
    ensures r != "" <==> key == "js" || key == "ps1"
    ensures key == "js" ==> r == "javascript"
    ensures key == "ps1" ==> r == "powershell"
  {
    if key == "js" then "javascript"
    else if key == "ps1" then "powershell"
    else ""
  }

  /**
   * The language of a `<pre>`: its `data-language` when set, else `langMap`
   * applied to the SECOND piece of `data-src` split on ".". A `data-src`
   * without a "." has no second piece and gives no language.
   */
  function ResolveLanguage(dataLanguage: string, dataSrc: string): (r: string)
    ensures dataLanguage != "" ==> r == dataLanguage
    ensures dataLanguage == "" ==> r == "" || r == "javascript" || r == "powershell"
  {
    if dataLanguage != "" then dataLanguage
    else
      var pieces := Split(dataSrc, '.');
      if |pieces| >= 2 then LangMap(pieces[1]) else ""
  }

  /** A file name with one "." resolves through its extension. */
  lemma {:induction false} ResolveByExtension(base: string, ext: string)
    requires '.' !in base && '.' !in ext
    ensures ResolveLanguage("", base + "." + ext) == LangMap(ext)
  {
    SplitJoin([base, ext], '.');
    assert Join([base, ext], ".") == base + "." + ext;
  }

  /**
   * With more than one ".", the piece between the first two decides, not the
   * extension: "a.min.js" looks up "min" and "./x.js" looks up "/x".
   */
  lemma {:induction false} ResolveBySecondPiece(base: string, mid: string, rest: string)
    requires '.' !in base && '.' !in mid
    ensures ResolveLanguage("", base + "." + mid + "." + rest) == LangMap(mid)
  {
    var src := base + "." + mid + "." + rest;
    assert src == base + ['.'] + (mid + ['.'] + rest);
    SplitAppend(base, mid + ['.'] + rest, '.');
    SplitAppend(mid, rest, '.');
    SplitFree(base, '.');
    SplitFree(mid, '.');
  }

  /** A `data-src` without a "." has no second piece, so no language. */
  lemma {:induction false} ResolveWithoutDot(src: string)
    requires '.' !in src
    ensures ResolveLanguage("", src) == ""
  {
    SplitFree(src, '.');
  }

  /** The two file names of the paragraph above give no language at all. */
  lemma MinifiedAndRelativeNamesMiss()
    ensures ResolveLanguage("", "a.min.js") == ""
    ensures ResolveLanguage("", "./x.js") == ""
  {
    ResolveBySecondPiece("a", "min", "js");
    assert "a" + "." + "min" + "." + "js" == "a.min.js";
    ResolveBySecondPiece("", "/x", "js");
    assert "" + "." + "/x" + "." + "js" == "./x.js";
  }

  /** The highlight.js module URL for a language. */
  function ScriptUrl(language: string): (url: string)
    ensures StartsWith(url, CdnPrefix) && EndsWith(url, ModuleSuffix)
    ensures |url| == |CdnPrefix| + |language| + |ModuleSuffix|
    ensures url[|CdnPrefix|..|CdnPrefix| + |language|] == language
  {
    CdnPrefix + language + ModuleSuffix
  }

  /** Different languages load different modules. */
  lemma ScriptUrlInjective(a: string, b: string)
    requires ScriptUrl(a) == ScriptUrl(b)
    ensures a == b
  {
    var n := |CdnPrefix|;
    assert |a| == |b|;
    assert a == ScriptUrl(a)[n..n + |a|];
    assert b == ScriptUrl(b)[n..n + |b|];
  }

  /** The `<code>` element `loadCodeBlock` creates. */
  class CodeNode {
    var text: string
    var classes: set<string>

    constructor (text: string)
      ensures this.text == text && classes == BaseClasses
    {
      this.text := text;
      classes := BaseClasses;
    }
  }

  /** A DOM element that may receive code nodes; only `<pre>` elements do. */
  class PreNode {
    const tagName: string
    var children: seq<CodeNode>

    constructor (tagName: string)
      ensures this.tagName == tagName && children == []
    {
      this.tagName := tagName;
      children := [];
    }
  }

  /** A script element whose `onload` will add `className` to `node`. */
  datatype PendingScript = PendingScript(src: string, node: CodeNode, className: string)

  /** `document.head`, seen as the set of its children's `src` values and the scripts still loading. */
  class Head {
    var srcs: set<string>
    var loading: seq<PendingScript>

    constructor ()
      ensures srcs == {} && loading == []
    {
      srcs := {};
      loading := [];
    }

    /** `checkSrcInHead(src)` */
    predicate HasSrc(src: string)
      reads this
    {
      src in srcs
    }

    /** The `onload` callback of the script at `index`: the code node gets its language class. */
    method ScriptLoaded(index: nat)
      requires index < |loading|
      modifies loading[index].node
      ensures loading[index].node.classes == old(loading[index].node.classes) + {loading[index].className}
      ensures loading[index].node.text == old(loading[index].node.text)
    {
      var pending := loading[index];
      pending.node.classes := pending.node.classes + {pending.className};
    }
  }

  /**
   * `loadCodeBlock(preNode, code, language)`: a missing node or one that is
   * not a `<pre>` gets nothing and the result is null; otherwise one code node
   * holding `code` is appended and the pre node is returned. With a language,
   * the class `language-<language>` is added at once when its module is
   * already in the head, and when the newly added script loads otherwise.
   */
  method LoadCodeBlock(pre: PreNode?, code: string, language: string, head: Head)
      returns (r: PreNode?)
    modifies pre, head
    ensures pre == null || pre.tagName != "PRE" ==>
      r == null && head.srcs == old(head.srcs) && head.loading == old(head.loading)
    ensures pre != null && pre.tagName != "PRE" ==> pre.children == old(pre.children)
    ensures pre != null && pre.tagName == "PRE" ==>
      && r == pre
      && |pre.children| == |old(pre.children)| + 1
      && pre.children[..|old(pre.children)|] == old(pre.children)
      && var node := pre.children[|old(pre.children)|];
      && fresh(node)
      && node.text == code
      && node.classes == BaseClasses +
           (if language != "" && ScriptUrl(language) in old(head.srcs) then {"language-" + language} else {})
      && head.srcs == old(head.srcs) + (if language != "" then {ScriptUrl(language)} else {})
      && head.loading == old(head.loading) +
           (if language != "" && ScriptUrl(language) !in old(head.srcs)
            then [PendingScript(ScriptUrl(language), node, "language-" + language)] else [])
  {
    if pre == null || pre.tagName != "PRE" {
      return null;
    }
    var node := new CodeNode(code);
    pre.children := pre.children + [node];
    if language == "" {
      return pre;
    }
    var src := ScriptUrl(language);
    if !head.HasSrc(src) {
      head.srcs := head.srcs + {src};
      head.loading := head.loading + [PendingScript(src, node, "language-" + language)];
      return pre;
    }
    node.classes := node.classes + {"language-" + language};
    r := pre;
  }

  /**
   * The fetch callback of `window.onload` for one `<pre>`: resolve the
   * language, then load the block.
   */
  method RenderPre(pre: PreNode, code: string, dataLanguage: string, dataSrc: string, head: Head)
      returns (r: PreNode?)
    modifies pre, head
    ensures pre.tagName == "PRE" ==> r == pre && |pre.children| == |old(pre.children)| + 1
    ensures pre.tagName == "PRE" && ResolveLanguage(dataLanguage, dataSrc) != "" ==>
      head.srcs == old(head.srcs) + {ScriptUrl(ResolveLanguage(dataLanguage, dataSrc))}
    ensures ResolveLanguage(dataLanguage, dataSrc) == "" ==> head.srcs == old(head.srcs)
  {
    var language := ResolveLanguage(dataLanguage, dataSrc);
    r := LoadCodeBlock(pre, code, language, head);
  }

  /**
   * Two blocks in the same language on one page: the first adds the module's
   * script and gets its class when the script loads, the second finds the
   * script in the head and gets the class at once.
   */
  method TwoBlocksOneScript(code1: string, code2: string) returns (head: Head, first: PreNode, second: PreNode)
    ensures head.srcs == {ScriptUrl("javascript")} && |head.loading| == 1
    ensures |first.children| == 1 && |second.children| == 1
    ensures head.loading[0].node == first.children[0] && head.loading[0].className == "language-javascript"
    ensures "language-javascript" !in first.children[0].classes
    ensures "language-javascript" in second.children[0].classes
  {
    assert "language-" + "javascript" == "language-javascript";
    head := new Head();
    first := new PreNode("PRE");
    second := new PreNode("PRE");
    var r1 := LoadCodeBlock(first, code1, "javascript", head);
    var r2 := LoadCodeBlock(second, code2, "javascript", head);
  }
}

=== FILE: fetch_cache.dfy ===
/**
 * `fetchCatch` (src/js/index.js): a read-through lookup in localStorage or
 * sessionStorage in front of `fetch`.
 *
 * The network is one abstract response; a JSON value is known by the text it
 * was parsed from, and whether a text parses as JSON is a predicate the caller
 * supplies. The function reports whether the network was consulted and the
 * stores as they are afterwards.
 */
module FetchCache {
  import opened Wrappers
  import opened JsStrings

  /** localStorage and sessionStorage. */
  datatype Stores = Stores(local: map<string, string>, session: map<string, string>)

  /** What `fetch(url, fetchParams)` resolves to, as far as fetchCatch looks at it. */
  datatype Response = Response(ok: bool, status: nat, body: string)

  /** The value `JSON.parse` (or `resp.json()`) produces from `text`. */
  datatype Value = JsonOf(text: string)

  datatype Outcome = Outcome(result: Result<Value>, usedNetwork: bool, stores: Stores)

  /** The message of the SyntaxError `JSON.parse` throws. */
  const ParseFailure := "SyntaxError: not JSON"

  /**
   * The rejection of the `resp.text()` fallback for a response with a body:
   * `resp.json()` has already consumed it, and reading a used body rejects
   * with a TypeError. A response without a body (null body) is not modelled.
   */
  const BodyAlreadyRead := "TypeError: body used already"

  /** The store `cache` selects: localStorage for "local", sessionStorage for anything else. */
  function CacheStore(stores: Stores, cache: string): (m: map<string, string>)
    ensures cache == "local" ==> m == stores.local
    ensures cache != "local" ==> m == stores.session
  {
    if cache == "local" then stores.local else stores.session
  }

  /** `getItem(url)` on the selected store, with `""` for null. */
  function Cached(stores: Stores, url: string, cache: string): (r: string)
    ensures url !in CacheStore(stores, cache) ==> r == ""
    ensures url in CacheStore(stores, cache) ==> r == CacheStore(stores, cache)[url]
  {
    var store := CacheStore(stores, cache);
    if url in store then store[url] else ""
  }

  /** `JSON.parse(text)` */
  function ParseJson(text: string, isJson: string -> bool): (r: Result<Value>)
    ensures r.Ok? <==> isJson(text)
    ensures r.Ok? ==> r.value.text == text
  {
    if isJson(text) then Ok(JsonOf(text)) else Err(ParseFailure)
  }

  /** The error thrown for a non-ok response: the status, a colon, and the body text. */
  function StatusError(resp: Response): (msg: string)
    ensures StartsWith(msg, NatToString(resp.status) + ": ")
    ensures msg[|NatToString(resp.status)| + 2..] == resp.body
  {
    NatToString(resp.status) + ": " + resp.body
  }

  /**
   * `fetchCatch(url, fetchParams, cache)`. `cache` is `""` for a falsy argument;
   * a caller that omits it gets "session". `network` is what `fetch` would
   * settle to if it were called: a response, or the error it rejects with.
   */
  function FetchCatch(stores: Stores, url: string, cache: string, network: Result<Response>,
                      isJson: string -> bool): (o: Outcome)
    // no path writes to either store
    ensures o.stores == stores
    // the network is consulted exactly on a miss: a falsy `cache` or nothing stored under `url`
    ensures !o.usedNetwork <==> cache != "" && Cached(stores, url, cache) != ""
    ensures !o.usedNetwork ==> o.result == ParseJson(Cached(stores, url, cache), isJson)
    // a rejected fetch rejects fetchCatch with the same error
    ensures o.usedNetwork && network.Err? ==> o.result == Err(network.message)
    ensures o.usedNetwork && network.Ok? && !network.value.ok ==>
      o.result == Err(StatusError(network.value))
    ensures o.usedNetwork && o.result.Ok? ==>
      network.Ok? && network.value.ok && o.result.value == JsonOf(network.value.body)
    // an ok response resolves to its JSON, or rejects when the body is not JSON
    ensures o.usedNetwork && network.Ok? && network.value.ok ==>
      o.result == if isJson(network.value.body) then Ok(JsonOf(network.value.body)) else Err(BodyAlreadyRead)
  {
    var cacheData := Cached(stores, url, cache);
    if cacheData != "" && cache != "" then
      Outcome(ParseJson(cacheData, isJson), false, stores)
    else if network.Err? then
      Outcome(Err(network.message), true, stores)
    else if !network.value.ok then
      Outcome(Err(StatusError(network.value)), true, stores)
    else if isJson(network.value.body) then
      Outcome(Ok(JsonOf(network.value.body)), true, stores)
    else
      Outcome(Err(BodyAlreadyRead), true, stores)
  }

  /** A hit never depends on what the network would have answered. */
  lemma {:induction false} HitIgnoresNetwork(stores: Stores, url: string, cache: string,
                                             r1: Result<Response>, r2: Result<Response>,
                                             isJson: string -> bool)
    requires cache != "" && Cached(stores, url, cache) != ""
    ensures FetchCatch(stores, url, cache, r1, isJson) == FetchCatch(stores, url, cache, r2, isJson)
  {
  }

  /** With cache "local", sessionStorage plays no part; with any other value, localStorage plays none. */
  lemma {:induction false} OnlySelectedStoreMatters(stores: Stores, url: string, cache: string,
                                                    other: map<string, string>, network: Result<Response>,
                                                    isJson: string -> bool)
    ensures cache == "local" ==>
      FetchCatch(stores.(session := other), url, cache, network, isJson).result ==
      FetchCatch(stores, url, cache, network, isJson).result
    ensures cache != "local" ==>
      FetchCatch(stores.(local := other), url, cache, network, isJson).result ==
      FetchCatch(stores, url, cache, network, isJson).result
  {
  }

  /**
   * Nothing is ever cached: a call that went to the network leaves the stores
   * as they were, so the same call goes to the network again, and then fails
   * when the network does (a rejected fetch or a non-ok response).
   */
  lemma {:induction false} MissStaysMiss(stores: Stores, url: string, cache: string,
                                         first: Result<Response>, second: Result<Response>,
                                         isJson: string -> bool)
    requires FetchCatch(stores, url, cache, first, isJson).usedNetwork
    ensures var again := FetchCatch(FetchCatch(stores, url, cache, first, isJson).stores, url, cache, second, isJson);
      again.usedNetwork && (second.Err? || !second.value.ok ==> again.result.Err?)
  {
  }

  /** A 404 on a miss rejects with a message starting "404: " and writes nothing. */
  lemma NotFoundRejects(stores: Stores, url: string, body: string, isJson: string -> bool)
    requires Cached(stores, url, "session") == ""
    ensures var o := FetchCatch(stores, url, "session", Ok(Response(false, 404, body)), isJson);
      o.usedNetwork && o.result.Err? && StartsWith(o.result.message, "404: ") && o.stores == stores
  {
    assert NatToString(404) == "404";
  }
}

=== FILE: js_strings.dfy ===
/**
 * The few members of JavaScript's String.prototype and Number that the site's
 * scripts rely on, over Dafny strings. Case mapping is ASCII only.
 */
module JsStrings {
  import opened Wrappers

  /** `p` occurs in `s` starting at index `i`. */
  predicate OccursAt(s: string, p: string, i: nat) {
    i + |p| <= |s| && s[i..i + |p|] == p
  }

  /** `s.startsWith(p)` */
  predicate StartsWith(s: string, p: string) {
    |p| <= |s| && s[..|p|] == p
  }

  /** `s.endsWith(p)` */
  predicate EndsWith(s: string, p: string) {
    |p| <= |s| && s[|s| - |p|..] == p
  }

  /** A common suffix can be dropped from both sides of `endsWith`. */
  lemma EndsWithCommonSuffix(x: string, z: string, y: string)
    ensures EndsWith(x + y, z + y) <==> EndsWith(x, z)
  {
    if |z| <= |x| {
      assert (x + y)[|x + y| - |z + y|..] == x[|x| - |z|..] + y;
      if (x + y)[|x + y| - |z + y|..] == z + y {
        assert x[|x| - |z|..] == (x[|x| - |z|..] + y)[..|z|];
        assert z == (z + y)[..|z|];
      }
    }
  }

  /** `s.includes(p)` */
  predicate Contains(s: string, p: string) {
    exists i: nat :: i <= |s| && OccursAt(s, p, i)
  }

  /** Where `p` occurs in `head + tail` inside `head`, it occurs in `head` too. */
  lemma OccursInPrefix(head: string, tail: string, p: string, j: nat)
    requires OccursAt(head + tail, p, j) && j + |p| <= |head|
    ensures OccursAt(head, p, j)
  {
    assert (head + tail)[j..j + |p|] == head[j..j + |p|];
  }

  /**
   * When `p` does not occur in `head` but ends `head + tail` for a
   * one-character `tail`, that final occurrence is its first.
   */
  lemma FirstOccurrenceAtEnd(head: string, tail: string, p: string, k: nat)
    requires !Contains(head, p)
    requires OccursAt(head + tail, p, k) && k + |p| == |head| + |tail| && |tail| == 1
    ensures IndexOf(head + tail, p) == k
  {
    var s := head + tail;
    forall j: nat | j < k
      ensures !OccursAt(s, p, j)
    {
      if OccursAt(s, p, j) {
        OccursInPrefix(head, tail, p, j);
      }
    }
  }

  /** The first index at or after `k` where `p` occurs in `s`, or -1. */
  function IndexFrom(s: string, p: string, k: nat): (r: int)
    requires k <= |s|
    decreases |s| - k
    ensures r == -1 || (k <= r <= |s| && OccursAt(s, p, r))
    ensures forall j: nat :: k <= j <= |s| && (r == -1 || j < r) ==> !OccursAt(s, p, j)
  {
    if OccursAt(s, p, k) then k
    else if k == |s| then -1
    else IndexFrom(s, p, k + 1)
  }

  /** `s.indexOf(p)`: the first occurrence of `p` in `s`, or -1 when there is none. */
  function IndexOf(s: string, p: string): (r: int)
    ensures r == -1 <==> !Contains(s, p)
    ensures r != -1 ==> 0 <= r && OccursAt(s, p, r)
    ensures r != -1 ==> forall j: nat :: j < r ==> !OccursAt(s, p, j)
  {
    IndexFrom(s, p, 0)
  }

  /** `s.indexOf(p) == 0` is `s.startsWith(p)`. */
  lemma IndexOfZero(s: string, p: string)
    ensures IndexOf(s, p) == 0 <==> StartsWith(s, p)
  {
    if StartsWith(s, p) {
      assert OccursAt(s, p, 0);
    }
  }

  /**
   * `s.replace(p, rep)` with a string pattern: only the FIRST occurrence of `p`
   * is replaced; without an occurrence the string comes back unchanged. The
   * replacement is inserted literally, so `rep` is taken to hold no "$"
   * pattern (the scripts only ever pass "").
   */
  function ReplaceFirst(s: string, p: string, rep: string): (r: string)
    ensures !Contains(s, p) ==> r == s
    ensures Contains(s, p) ==> |r| == |s| - |p| + |rep|
    ensures Contains(s, p) ==>
      var i := IndexOf(s, p);
      StartsWith(r, s[..i] + rep) && r[i + |rep|..] == s[i + |p|..]
  {
    var i := IndexOf(s, p);
    if i == -1 then s else s[..i] + rep + s[i + |p|..]
  }

  /** `s.split(sep)` for a one-character separator. */
  function Split(s: string, sep: char): (r: seq<string>)
    ensures |r| >= 1
    ensures forall k :: 0 <= k < |r| ==> sep !in r[k]
  {
    if s == [] then [""]
    else
      var rest := Split(s[1..], sep);
      if s[0] == sep then [""] + rest
      else [[s[0]] + rest[0]] + rest[1..]
  }

  /** One step of `Split`: the first character either ends the first piece or joins it. */
  lemma SplitCons(c: char, t: string, sep: char)
    ensures Split([c] + t, sep) ==
      if c == sep then [""] + Split(t, sep) else [[c] + Split(t, sep)[0]] + Split(t, sep)[1..]
  {
    assert ([c] + t)[1..] == t;
  }

  /** `pieces.join(sep)` */
  function Join(pieces: seq<string>, sep: string): string {
    if |pieces| == 0 then ""
    else if |pieces| == 1 then pieces[0]
    else pieces[0] + sep + Join(pieces[1..], sep)
  }

  lemma JoinCons(x: string, pieces: seq<string>, sep: string)
    requires |pieces| >= 1
    ensures Join([x] + pieces, sep) == x + sep + Join(pieces, sep)
  {
    assert ([x] + pieces)[1..] == pieces;
  }

  /** Joining the pieces of a split with the separator gives back the string. */
  lemma {:induction false} JoinSplit(s: string, sep: char)
    ensures Join(Split(s, sep), [sep]) == s
  {
    if s != [] {
      JoinSplit(s[1..], sep);
      assert s == [s[0]] + s[1..];
      SplitCons(s[0], s[1..], sep);
      JoinSplitStep(s[0], Split(s[1..], sep), sep);
    }
  }

  /** The inductive step of `JoinSplit`: one more character in front joins to one more character in front. */
  lemma JoinSplitStep(c: char, rest: seq<string>, sep: char)
    requires |rest| >= 1
    ensures Join(if c == sep then [""] + rest else [[c] + rest[0]] + rest[1..], [sep]) == [c] + Join(rest, [sep])
  {
    if c == sep {
      JoinCons("", rest, [sep]);
    } else if |rest| == 1 {
      assert [[c] + rest[0]] + rest[1..] == [[c] + rest[0]];
    } else {
      JoinCons([c] + rest[0], rest[1..], [sep]);
      JoinCons(rest[0], rest[1..], [sep]);
      assert [rest[0]] + rest[1..] == rest;
    }
  }

  /** Splitting a join of separator-free pieces gives back the pieces. */
  lemma {:induction false} SplitJoin(pieces: seq<string>, sep: char)
    requires |pieces| >= 1
    requires forall k :: 0 <= k < |pieces| ==> sep !in pieces[k]
    ensures Split(Join(pieces, [sep]), sep) == pieces
    decreases |pieces|, |pieces[0]|
  {
    var p0 := pieces[0];
    if |pieces| == 1 {
      SplitFree(p0, sep);
    } else if p0 == [] {
      var tail := pieces[1..];
      JoinCons("", tail, [sep]);
      SplitJoin(tail, sep);
      assert Join(pieces, [sep]) == [sep] + Join(tail, [sep]);
      assert Join(pieces, [sep])[1..] == Join(tail, [sep]);
    } else {
      var shorter := [p0[1..]] + pieces[1..];
      assert forall k :: 0 <= k < |shorter| ==> sep !in shorter[k] by {
        forall k | 0 <= k < |shorter| ensures sep !in shorter[k] {
          if k == 0 { assert forall c :: c in p0[1..] ==> c in p0; } else { assert shorter[k] == pieces[k]; }
        }
      }
      SplitJoin(shorter, sep);
      assert shorter[1..] == pieces[1..];
      var j := Join(pieces, [sep]);
      assert j == p0 + [sep] + Join(pieces[1..], [sep]);
      assert Join(shorter, [sep]) == p0[1..] + [sep] + Join(pieces[1..], [sep]);
      assert j[0] == p0[0] && j[0] != sep;
      assert j[1..] == Join(shorter, [sep]);
      assert [p0[0]] + p0[1..] == p0;
    }
  }

  /** Splitting at a separator splits the two sides independently. */
  lemma {:induction false} SplitAppend(a: string, b: string, sep: char)
    ensures Split(a + [sep] + b, sep) == Split(a, sep) + Split(b, sep)
  {
    if a == [] {
      assert a + [sep] + b == [sep] + b;
      SplitCons(sep, b, sep);
    } else {
      var rest := a[1..];
      SplitAppend(rest, b, sep);
      assert a + [sep] + b == [a[0]] + (rest + [sep] + b);
      assert a == [a[0]] + rest;
      SplitAppendStep(a[0], Split(rest, sep), Split(b, sep), sep);
      SplitCons(a[0], rest + [sep] + b, sep);
      SplitCons(a[0], rest, sep);
    }
  }

  /** Putting a character in front of the first piece commutes with appending more pieces. */
  lemma SplitAppendStep(c: char, left: seq<string>, right: seq<string>, sep: char)
    requires |left| >= 1
    ensures (if c == sep then [""] + (left + right) else [[c] + (left + right)[0]] + (left + right)[1..]) ==
      (if c == sep then [""] + left else [[c] + left[0]] + left[1..]) + right
  {
    if c != sep {
      assert (left + right)[0] == left[0];
      assert (left + right)[1..] == left[1..] + right;
    }
  }

  /** A string without the separator splits into itself alone. */
  lemma {:induction false} SplitFree(s: string, sep: char)
    requires sep !in s
    ensures Split(s, sep) == [s]
  {
    if s != [] {
      SplitFree(s[1..], sep);
      assert [s[0]] + s[1..] == s;
    }
  }

  /** `String.prototype.toLowerCase` on one ASCII character. */
  function LowerChar(c: char): (r: char)
    ensures 'A' <= c <= 'Z' ==> 'a' <= r <= 'z' && r as int == c as int + 32
    ensures !('A' <= c <= 'Z') ==> r == c
  {
    if 'A' <= c <= 'Z' then (c as int + 32) as char else c
  }

  /** `String.prototype.toUpperCase` on one ASCII character. */
  function UpperChar(c: char): (r: char)
    ensures 'a' <= c <= 'z' ==> 'A' <= r <= 'Z' && r as int == c as int - 32
    ensures !('a' <= c <= 'z') ==> r == c
  {
    if 'a' <= c <= 'z' then (c as int - 32) as char else c
  }

  /** `s.toLowerCase()` */
  function ToLower(s: string): (r: string)
    ensures |r| == |s|
    ensures forall i :: 0 <= i < |s| ==> r[i] == LowerChar(s[i])
  {
    seq(|s|, i requires 0 <= i < |s| => LowerChar(s[i]))
  }

  /** `s.toUpperCase()` */
  function ToUpper(s: string): (r: string)
    ensures |r| == |s|
    ensures forall i :: 0 <= i < |s| ==> r[i] == UpperChar(s[i])
  {
    seq(|s|, i requires 0 <= i < |s| => UpperChar(s[i]))
  }

  predicate IsDigit(c: char) {
    '0' <= c <= '9'
  }

  function DigitChar(d: nat): (c: char)
    requires d < 10
    ensures IsDigit(c)
  {
    ('0' as int + d) as char
  }

  /** The value of a string of decimal digits, most significant first. */
  function DigitsValue(ds: string): nat
    requires forall i :: 0 <= i < |ds| ==> IsDigit(ds[i])
  {
    if ds == [] then 0
    else
      assert IsDigit(ds[|ds| - 1]);
      DigitsValue(ds[..|ds| - 1]) * 10 + (ds[|ds| - 1] as int - '0' as int)
  }

  /** The decimal rendering of a non-negative integer, as template literals produce it. */
  function NatToString(n: nat): (r: string)
    ensures |r| >= 1
    ensures forall i :: 0 <= i < |r| ==> IsDigit(r[i])
    // no leading zeros
    ensures n > 0 ==> r[0] != '0'
  {
    if n < 10 then [DigitChar(n)] else NatToString(n / 10) + [DigitChar(n % 10)]
  }

  /** Reading back the decimal rendering of `n` gives `n`. */
  lemma {:induction false} NatToStringRoundTrip(n: nat)
    ensures DigitsValue(NatToString(n)) == n
  {
    var s := NatToString(n);
    if n >= 10 {
      NatToStringRoundTrip(n / 10);
      assert s[..|s| - 1] == NatToString(n / 10);
    } else {
      assert s[..0] == [];
    }
  }

  /** Every decimal rendering is a digit string `Number` reads (no sign, no leading blank). */
  predicate IsDigitString(s: string) {
    |s| >= 1 && forall i :: 0 <= i < |s| ==> IsDigit(s[i])
  }

  /**
   * `Number(s)` restricted to what a CSS integer value can be: the empty string
   * is 0, an optionally signed run of decimal digits is its value, and anything
   * else is NaN (`None`).
   */
  function ParseNumber(s: string): (r: Option<int>)
    ensures s == "" ==> r == Some(0)
    ensures IsDigitString(s) ==> r == Some(DigitsValue(s))
    ensures r.Some? && s != "" ==> IsDigit(s[|s| - 1])
    // a sign in front of the digits
    ensures s != "" && s[0] == '-' && IsDigitString(s[1..]) ==> r == Some(-(DigitsValue(s[1..]) as int))
    ensures s != "" && s[0] == '+' && IsDigitString(s[1..]) ==> r == Some(DigitsValue(s[1..]))
    // NaN for everything else
    ensures r.None? <==>
      s != "" && !IsDigitString(s) && !((s[0] == '-' || s[0] == '+') && IsDigitString(s[1..]))
  {
    if s == "" then Some(0)
    else if IsDigitString(s) then Some(DigitsValue(s))
    else if (s[0] == '-' || s[0] == '+') && IsDigitString(s[1..]) then
      var magnitude: int := DigitsValue(s[1..]);
      Some(if s[0] == '-' then -magnitude else magnitude)
    else None
  }

  /** Rendering then parsing an integer is the identity. */
  lemma NumberOfNatString(n: nat)
    ensures ParseNumber(NatToString(n)) == Some(n)
  {
    NatToStringRoundTrip(n);
  }

  /** A minus sign in front of the rendering of `n` reads back as `-n`. */
  lemma NumberOfNegativeString(n: nat)
    ensures ParseNumber("-" + NatToString(n)) == Some(-(n as int))
  {
    var s := "-" + NatToString(n);
    assert s[1..] == NatToString(n);
    NatToStringRoundTrip(n);
  }
}

=== FILE: navbar.dfy ===
/**
 * The navbar's behaviour (src/js/components/navbar.js): which menu link is
 * highlighted, the open/closed menu checkbox, and the mode-toggle glyph.
 */
module Navbar {
  import opened JsStrings
  import opened ThemeState

  const AccentColor := "var(--accent-color)"

  /** Widths above this close an open menu. */
  const MenuBreakpoint := 768

  /**
   * The path prefix a menu link claims: its pathname up to the first ".",
   * with the first "index" removed, or "/" when nothing is left.
   */
  function ActivePrefix(pathname: string): (r: string)
    ensures r != ""
  {
    var stem := Split(pathname, '.')[0];
    var prefix := ReplaceFirst(stem, "index", "");
    if prefix == "" then "/" else prefix
  }

  /** A link is highlighted when the current pathname starts with its prefix. */
  predicate IsActiveLink(current: string, linkPathname: string)
    // every prefix is non-empty, so no link is highlighted on an empty path
    ensures current == "" ==> !IsActiveLink(current, linkPathname)
    ensures IsActiveLink(current, linkPathname) ==> current[0] == ActivePrefix(linkPathname)[0]
  {
    StartsWith(current, ActivePrefix(linkPathname))
  }

  /** The stem of a dot-free name followed by an extension is that name. */
  lemma StemOf(stem: string, ext: string)
    requires '.' !in stem
    ensures Split(stem + "." + ext, '.')[0] == stem
  {
    SplitAppend(stem, ext, '.');
    SplitFree(stem, '.');
    assert stem + "." + ext == stem + ['.'] + ext;
  }

  /** "index" cannot start in the last four characters, so an "i"-free head rules it out. */
  lemma NoIndexIn(head: string, tail: string)
    requires 'i' !in head && |tail| <= 4
    ensures !Contains(head + tail, "index")
  {
    var s := head + tail;
    forall j: nat | j <= |s|
      ensures !OccursAt(s, "index", j)
    {
      if j + 5 <= |s| {
        assert s[j..j + 5][0] == s[j] == head[j];
        assert head[j] in head;
      }
    }
  }

  /** A page link "<stem>.<ext>" without "index" in its stem claims the stem itself. */
  lemma {:induction false} PagePrefix(stem: string, ext: string)
    requires '.' !in stem && stem != "" && !Contains(stem, "index")
    ensures ActivePrefix(stem + "." + ext) == stem
  {
    StemOf(stem, ext);
  }

  /** A directory index link "<dir>index.<ext>" claims the directory, or "/" for the site root. */
  lemma {:induction false} IndexPrefix(dir: string, ext: string)
    requires '.' !in dir && !Contains(dir + "inde", "index")
    ensures ActivePrefix(dir + "index" + "." + ext) == if dir == "" then "/" else dir
  {
    var stem := dir + "index";
    assert stem == (dir + "inde") + "x";
    assert '.' !in stem by {
      assert forall c :: c in stem ==> c in dir || c in "index";
    }
    StemOf(stem, ext);
    assert OccursAt(stem, "index", |dir|);
    forall j: nat | j < |dir|
      ensures !OccursAt(stem, "index", j)
    {
      if OccursAt(stem, "index", j) {
        OccursInPrefix(dir + "inde", "x", "index", j);
      }
    }
    assert IndexOf(stem, "index") == |dir|;
    assert stem[..|dir|] == dir;
  }

  /** The menu links claim "/about", "/projects/" and "/etc/". */
  lemma AboutPrefix()
    ensures ActivePrefix("/about.html") == "/about"
  {
    NoIndexIn("/a", "bout");
    assert "/a" + "bout" == "/about";
    PagePrefix("/about", "html");
    assert "/about" + "." + "html" == "/about.html";
  }

  lemma ProjectsPrefix()
    ensures ActivePrefix("/projects/index.html") == "/projects/"
  {
    var dir := "/projects/";
    assert dir + "index" + "." + "html" == "/projects/index.html";
    assert 'i' !in dir && '.' !in dir;
    NoIndexIn(dir, "inde");
    IndexPrefix(dir, "html");
  }

  lemma EtcPrefix()
    ensures ActivePrefix("/etc/index.html") == "/etc/"
  {
    NoIndexIn("/etc/", "inde");
    IndexPrefix("/etc/", "html");
    assert "/etc/" + "index" + "." + "html" == "/etc/index.html";
  }

  /** Each menu link is highlighted on its own page and on the pages below it, and only there. */
  lemma {:induction false} OwnPageIsActive(stem: string, ext: string, current: string)
    requires '.' !in stem && stem != "" && !Contains(stem, "index")
    ensures IsActiveLink(current, stem + "." + ext) <==> StartsWith(current, stem)
  {
    PagePrefix(stem, ext);
  }

  /** A link to "/index.html" would claim "/", and so be highlighted on every page. */
  lemma {:induction false} RootIndexClaimsEverything(current: string)
    requires StartsWith(current, "/")
    ensures IsActiveLink(current, "/index.html")
  {
    NoIndexIn("/", "inde");
    IndexPrefix("/", "html");
    assert "/" + "index" + "." + "html" == "/index.html";
  }

  /** A menu anchor: its full `href`, the `pathname` of that URL, and its colour. */
  datatype Anchor = Anchor(href: string, pathname: string, color: string)

  /** `window.location`: the full URL and its pathname. */
  datatype Location = Location(href: string, pathname: string)

  /**
   * One pass of the load handler over an anchor. Setting `href` to "#" makes it
   * point at the current page, so its pathname becomes the current one before
   * the highlight test reads it.
   */
  function MarkAnchor(a: Anchor, loc: Location): (r: Anchor)
    ensures r.href == a.href || r.href == "#"
    ensures r.color == a.color || r.color == AccentColor
  {
    var linked := if a.href == loc.href then a.(href := "#", pathname := loc.pathname) else a;
    if IsActiveLink(loc.pathname, linked.pathname) then linked.(color := AccentColor) else linked
  }

  /** The link to the current page becomes "#" and, when it claims its own path, is highlighted. */
  lemma CurrentPageLink(a: Anchor, loc: Location)
    requires a.href == loc.href
    requires StartsWith(loc.pathname, ActivePrefix(loc.pathname))
    ensures MarkAnchor(a, loc).href == "#" && MarkAnchor(a, loc).color == AccentColor
  {
  }

  /**
   * A link to the current page whose path lies outside its own prefix (say
   * "/a/index/b.html", which claims "/a//b") becomes "#" but keeps its colour.
   */
  lemma CurrentPageLinkOutsidePrefix(a: Anchor, loc: Location)
    requires a.href == loc.href
    requires !StartsWith(loc.pathname, ActivePrefix(loc.pathname))
    ensures MarkAnchor(a, loc).href == "#" && MarkAnchor(a, loc).color == a.color
  {
  }

  /** Any other link keeps its href and is highlighted exactly when the current path lies under its prefix. */
  lemma OtherLink(a: Anchor, loc: Location)
    requires a.href != loc.href && a.color != AccentColor
    ensures MarkAnchor(a, loc).href == a.href
    ensures MarkAnchor(a, loc).color == AccentColor <==> IsActiveLink(loc.pathname, a.pathname)
  {
  }

  /** The load handler's loop over the menu's anchors. */
  method HighlightMenu(anchors: array<Anchor>, loc: Location)
    modifies anchors
    ensures forall k :: 0 <= k < anchors.Length ==> anchors[k] == MarkAnchor(old(anchors[k]), loc)
  {
    ghost var original := anchors[..];
    var i := 0;
    while i < anchors.Length
      invariant 0 <= i <= anchors.Length
      invariant forall k :: 0 <= k < i ==> anchors[k] == MarkAnchor(original[k], loc)
      invariant forall k :: i <= k < anchors.Length ==> anchors[k] == original[k]
    {
      MarkAt(anchors, i, loc);
      i := i + 1;
    }
  }

  /** One pass of the load handler's loop: the anchor at `i` is marked, the others are left alone. */
  method MarkAt(anchors: array<Anchor>, i: nat, loc: Location)
    requires i < anchors.Length
    modifies anchors
    ensures anchors[i] == MarkAnchor(old(anchors[i]), loc)
    ensures forall k :: 0 <= k < anchors.Length && k != i ==> anchors[k] == old(anchors[k])
  {
    var anchor := anchors[i];
    if anchor.href == loc.href {
      anchor := anchor.(href := "#", pathname := loc.pathname);
    }
    if IsActiveLink(loc.pathname, anchor.pathname) {
      anchor := anchor.(color := AccentColor);
    }
    anchors[i] := anchor;
  }

  /** The menu's `checked` after a click anywhere in the document. */
  function CheckedAfterClick(checked: bool, insideNav: bool): (r: bool)
    ensures r ==> checked
    ensures !insideNav ==> !r
    ensures insideNav ==> r == checked
  {
    if insideNav then checked else false
  }

  /** The menu's `checked` after a resize to `width`. */
  function CheckedAfterResize(checked: bool, width: int): (r: bool)
    ensures r ==> checked
    ensures width > MenuBreakpoint ==> !r
    ensures width <= MenuBreakpoint ==> r == checked
  {
    if width > MenuBreakpoint && checked then !checked else checked
  }

  /** Neither handler ever opens the menu, and each leaves a closed menu closed. */
  lemma HandlersOnlyClose(checked: bool, insideNav: bool, width: int)
    ensures !checked ==> !CheckedAfterClick(checked, insideNav) && !CheckedAfterResize(checked, width)
    ensures CheckedAfterClick(CheckedAfterClick(checked, insideNav), insideNav) == CheckedAfterClick(checked, insideNav)
    ensures CheckedAfterResize(CheckedAfterResize(checked, width), width) == CheckedAfterResize(checked, width)
  {
  }

  /** The `#menu-toggle` checkbox. */
  class MenuToggle {
    var checked: bool

    constructor (checked: bool)
      ensures this.checked == checked
    {
      this.checked := checked;
    }

    /**
     * `click()` on a checkbox flips it. The click event it fires bubbles to
     * the document, where its target lies inside `.nav` and is ignored.
     */
    method Click()
      modifies this
      ensures checked == !old(checked)
    {
      checked := !checked;
    }
  }

  /** The document click handler: a click outside `.nav` closes an open menu. */
  method OnDocumentClick(toggle: MenuToggle?, insideNav: bool)
    modifies toggle
    ensures toggle != null ==> toggle.checked == CheckedAfterClick(old(toggle.checked), insideNav)
  {
    if insideNav {
      return;
    }
    if toggle != null && toggle.checked {
      toggle.checked := false;
    }
  }

  /** The resize handler: wider than the breakpoint, an open menu is clicked shut. */
  method OnResize(toggle: MenuToggle, width: int)
    modifies toggle
    ensures toggle.checked == CheckedAfterResize(old(toggle.checked), width)
  {
    if width > MenuBreakpoint && toggle.checked {
      toggle.Click();
    }
  }

  /** The page after one click on the mode toggle, which calls `reverse` with a truthy `save`. */
  function AfterToggle(env: Env): (r: Env)
    ensures r.dataMode == Opposite(FromExisting(env).value.theme)
    ensures ThemeKey in r.session && r.session[ThemeKey] == r.dataMode
    ensures r.session == env.session[ThemeKey := r.dataMode]
    ensures r.matchingQueries == env.matchingQueries
  {
    AfterSet(env, Reversed(FromExisting(env).value).value, true)
  }

  /** With no data-mode set, a matching dark query makes the toggle show the moon at load. */
  lemma InitialGlyph(env: Env)
    ensures env.dataMode == "" && DarkQuery in env.matchingQueries ==> ActiveIcon(env) == MoonGlyph
  {
  }

  /**
   * A click flips the page between "dark" and "light", saves the new theme,
   * and two clicks bring back the theme the page started in.
   */
  lemma {:induction false} ToggleFlips(env: Env)
    requires FromExisting(env).value.theme == Dark || FromExisting(env).value.theme == Light
    ensures AfterToggle(env).dataMode == Opposite(FromExisting(env).value.theme)
    ensures AfterToggle(env).session == env.session[ThemeKey := AfterToggle(env).dataMode]
    ensures AfterToggle(AfterToggle(env)).dataMode == FromExisting(env).value.theme
  {
    var once := AfterToggle(env);
    FromExistingAfterSet(env, Reversed(FromExisting(env).value).value, true);
    ReverseTwice(FromExisting(env).value);
  }

  /**
   * The mode-toggle click handler: the glyph it shows afterwards is the one
   * the static `Theme.unicodeIcon` reports for the new page state.
   */
  method OnModeToggleClick(root: Root) returns (glyph: string)
    modifies root
    ensures root.Snapshot() == AfterToggle(old(root.Snapshot()))
    ensures glyph == ActiveIcon(root.Snapshot())
  {
    var existing := FromExisting(root.Snapshot());
    var reversed := root.Reverse(existing.value, true);
    glyph := Icon(reversed.value);
  }
}

=== FILE: project.dfy ===
/**
 * The project cards (src/js/project.js): the stacked language bars that
 * `createBar` appends, the card set-up of `addProjectEvents`, and the rules
 * that open a card named by the URL fragment.
 */
module Project {
  import opened Wrappers
  import opened JsStrings

  // ---------------------------------------------------------------------
  // createBar
  // ---------------------------------------------------------------------

  /**
   * The base stacking level: the container's z-index style (`"0"` when it has
   * none) with the first "auto" and then the first "px" removed, read by
   * `Number`. `None` is NaN.
   */
  function BaseZIndex(style: string): (r: Option<int>)
    ensures style == "" ==> r == Some(0)
  {
    var raw := if style == "" then "0" else style;
    ParseNumber(ReplaceFirst(ReplaceFirst(raw, "auto", ""), "px", ""))
  }

  /** "auto" is level 0. */
  lemma AutoIsZero()
    ensures BaseZIndex("auto") == Some(0)
  {
    assert OccursAt("auto", "auto", 0);
    assert !Contains("", "px");
  }

  /** A pixel value "<digits>px" is the number the digits spell. */
  lemma {:induction false} PixelsAreNumbers(digits: string)
    requires IsDigitString(digits)
    ensures BaseZIndex(digits + "px") == Some(DigitsValue(digits))
    ensures BaseZIndex(digits) == Some(DigitsValue(digits))
  {
    var s := digits + "px";
    forall i: nat | i <= |s|
      ensures !OccursAt(s, "auto", i)
    {
      if i + 4 <= |s| {
        assert s[i..i + 4][0] == s[i];
        if i < |digits| { assert s[i] == digits[i]; }
      }
    }
    assert !Contains(s, "auto");
    assert OccursAt(s, "px", |digits|);
    forall j: nat | j < |digits|
      ensures !OccursAt(s, "px", j)
    {
      assert s[j] == digits[j];
      if j + 2 <= |s| { assert s[j..j + 2][0] == s[j]; }
    }
    assert IndexOf(s, "px") == |digits|;
    assert s[..|digits|] == digits;
    assert ReplaceFirst(s, "px", "") == digits;
    forall i: nat | i <= |digits|
      ensures !OccursAt(digits, "auto", i)
    {
      if i + 4 <= |digits| { assert digits[i..i + 4][0] == digits[i]; }
    }
    assert !Contains(digits, "auto");
    forall j: nat | j <= |digits|
      ensures !OccursAt(digits, "px", j)
    {
      if j + 2 <= |digits| { assert digits[j..j + 2][0] == digits[j]; }
    }
    assert !Contains(digits, "px");
  }

  /** "12px" is level 12. */
  lemma TwelvePixels()
    ensures BaseZIndex("12px") == Some(12)
  {
    var digits := "12";
    assert IsDigit(digits[0]) && IsDigit(digits[1]);
    assert digits[..1] == "1" && "1"[..0] == "";
    assert DigitsValue(digits) == 12;
    PixelsAreNumbers(digits);
    assert digits + "px" == "12px";
  }

  /** One language bar: its classes, width and left offset (percent), and stacking level. */
  datatype Bar = Bar(classes: seq<string>, width: real, left: real, zIndex: Option<int>)

  /** The sum of the widths of `langs`, in key order. */
  function TotalWidth(langs: seq<(string, real)>): real {
    if langs == [] then 0.0 else TotalWidth(langs[..|langs| - 1]) + langs[|langs| - 1].1
  }

  /** The level the `i`-th of `n` bars gets over base `b`. */
  function LevelAt(n: nat, base: Option<int>, i: nat): Option<int> {
    if base.Some? then Some(n + base.value - i) else None
  }

  /**
   * The bars `createBar` appends for `langs` (language name and width, in key
   * order), on a container whose base level is `base`; `clean` is the
   * language-to-CSS-name mapping.
   */
  function BarsFor(langs: seq<(string, real)>, base: Option<int>, clean: string -> string): (bars: seq<Bar>)
    ensures |bars| == |langs|
  {
    seq(|langs|, i requires 0 <= i < |langs| =>
      Bar([clean(langs[i].0) + "-bg", "bar"], langs[i].1, TotalWidth(langs[..i]), LevelAt(|langs|, base, i)))
  }

  /** The `i`-th bar, unfolded. */
  lemma BarAt(langs: seq<(string, real)>, base: Option<int>, clean: string -> string, i: nat)
    requires i < |langs|
    ensures BarsFor(langs, base, clean)[i] ==
      Bar([clean(langs[i].0) + "-bg", "bar"], langs[i].1, TotalWidth(langs[..i]), LevelAt(|langs|, base, i))
  {
  }

  /** Each language gets one bar, with its own width and classes `<clean>-bg` and `bar`. */
  lemma OneBarPerLanguage(langs: seq<(string, real)>, base: Option<int>, clean: string -> string, i: nat)
    requires i < |langs|
    ensures BarsFor(langs, base, clean)[i].width == langs[i].1
    ensures BarsFor(langs, base, clean)[i].classes == [clean(langs[i].0) + "-bg", "bar"]
  {
  }

  /**
   * Over a numeric base `b` the `i`-th bar is at level `n + b - i`: earlier bars
   * stack strictly above later ones, the first is at `n + b` and the last at `b + 1`.
   * A NaN base leaves every level NaN.
   */
  lemma StackingOrder(langs: seq<(string, real)>, base: Option<int>, clean: string -> string)
    ensures var bars := BarsFor(langs, base, clean);
      base.Some? ==>
        (forall i :: 0 <= i < |bars| ==> bars[i].zIndex == Some(|langs| + base.value - i)) &&
        (forall i, j :: 0 <= i < j < |bars| ==> bars[i].zIndex.value > bars[j].zIndex.value) &&
        (|bars| > 0 ==> bars[|bars| - 1].zIndex == Some(base.value + 1))
    ensures var bars := BarsFor(langs, base, clean);
      base.None? ==> forall i :: 0 <= i < |bars| ==> bars[i].zIndex.None?
  {
    var bars := BarsFor(langs, base, clean);
    forall i | 0 <= i < |bars|
      ensures bars[i].zIndex == LevelAt(|langs|, base, i)
    {
      BarAt(langs, base, clean, i);
    }
  }

  /** The bars tile from 0: each starts where the previous one ends, and the last ends at the total width. */
  lemma {:induction false} BarsTile(langs: seq<(string, real)>, base: Option<int>, clean: string -> string)
    ensures var bars := BarsFor(langs, base, clean);
      (|bars| > 0 ==> bars[0].left == 0.0) &&
      (forall i :: 0 <= i < |bars| - 1 ==> bars[i + 1].left == bars[i].left + bars[i].width) &&
      (|bars| > 0 ==> bars[|bars| - 1].left + bars[|bars| - 1].width == TotalWidth(langs))
  {
    var bars := BarsFor(langs, base, clean);
    forall i | 0 <= i < |bars| - 1
      ensures bars[i + 1].left == bars[i].left + bars[i].width
    {
      BarAt(langs, base, clean, i);
      BarAt(langs, base, clean, i + 1);
      assert langs[..i + 1][..i] == langs[..i];
    }
    if |bars| > 0 {
      BarAt(langs, base, clean, 0);
      BarAt(langs, base, clean, |bars| - 1);
      assert langs[..|langs|] == langs;
      assert langs[..|langs|][..|langs| - 1] == langs[..|langs| - 1];
    }
  }

  /** The element the bars go into. */
  class BarContainer {
    var bars: seq<Bar>

    constructor ()
      ensures bars == []
    {
      bars := [];
    }
  }

  /**
   * `createBar` once the languages have arrived. `style` is what `getStyle`
   * reports for the container's z-index (`""` for nothing).
   */
  method CreateBar(container: BarContainer, langs: seq<(string, real)>, style: string,
                   clean: string -> string)
    modifies container
    ensures container.bars == old(container.bars) + BarsFor(langs, BaseZIndex(style), clean)
  {
    var base := BaseZIndex(style);
    AppendBars(container, langs, base, clean);
  }

  /**
   * The `forEach` of `createBar`: the level starts at `n + 1 + base` and is
   * decremented before each bar, and the running total is advanced by the
   * bar's width before the bar's left offset is taken.
   */
  method AppendBars(container: BarContainer, langs: seq<(string, real)>, base: Option<int>,
                    clean: string -> string)
    modifies container
    ensures container.bars == old(container.bars) + BarsFor(langs, base, clean)
  {
    var zIndex: Option<int> := if base.Some? then Some(|langs| + 1 + base.value) else None;
    var totalWidth: real := 0.0;
    ghost var expected := BarsFor(langs, base, clean);
    var i := 0;
    while i < |langs|
      invariant 0 <= i <= |langs|
      invariant container.bars == old(container.bars) + expected[..i]
      invariant zIndex == LevelAt(|langs| + 1, base, i)
      invariant totalWidth == TotalWidth(langs[..i])
    {
      var lang := langs[i].0;
      var width := langs[i].1;
      zIndex := if zIndex.Some? then Some(zIndex.value - 1) else None;
      assert zIndex == LevelAt(|langs|, base, i);
      totalWidth := totalWidth + width;
      var left := totalWidth - width;
      assert left == TotalWidth(langs[..i]);
      assert langs[..i + 1][..i] == langs[..i];
      assert totalWidth == TotalWidth(langs[..i + 1]);
      var bar := Bar([clean(lang) + "-bg", "bar"], width, left, zIndex);
      BarAt(langs, base, clean, i);
      assert bar == expected[i];
      container.bars := container.bars + [bar];
      assert expected[..i + 1] == expected[..i] + [expected[i]];
      i := i + 1;
    }
    assert expected[..|langs|] == expected;
  }

  // ---------------------------------------------------------------------
  // addProjectEvents
  // ---------------------------------------------------------------------

  /** A `.norepo` element's visibility after set-up. */
  function FlipVisibility(v: string): (r: string)
    ensures r == "visible" <==> v == "hidden"
    ensures r == "hidden" <==> v != "hidden"
  {
    if v == "hidden" then "visible" else "hidden"
  }

  /** Flipping twice restores "hidden" and "visible", and turns any other value into "visible". */
  lemma FlipTwice(v: string)
    ensures v == "hidden" || v == "visible" ==> FlipVisibility(FlipVisibility(v)) == v
    ensures v != "hidden" ==> FlipVisibility(FlipVisibility(v)) == "visible"
  {
  }

  /** The indices of the card contents that get a click listener: all but the SUMMARY ones. */
  function Listening(contentTags: seq<string>): (r: set<nat>)
    ensures forall k: nat :: k in r <==> k < |contentTags| && contentTags[k] != "SUMMARY"
  {
    set k: nat | k < |contentTags| && contentTags[k] != "SUMMARY"
  }

  /**
   * A click on card content: the tag of its target, whether the target lies
   * inside the content element, and whether a non-collapsed selection does.
   */
  datatype ClickEvent = ClickEvent(targetTag: string, targetInside: bool, selectionInside: bool)

  /** Whether a listener flips the card on `ev`: not on a link, not while selecting text inside. */
  predicate ClickToggles(ev: ClickEvent)
    ensures ev.targetTag == "A" ==> !ClickToggles(ev)
    ensures !ev.selectionInside ==> (ClickToggles(ev) <==> ev.targetTag != "A")
  {
    ev.targetTag != "A" && !(ev.targetInside && ev.selectionInside)
  }

  /** The card's `open` after a click on content `i`, given which contents listen. */
  function OpenAfterClick(open: bool, listening: set<nat>, i: nat, ev: ClickEvent): (r: bool)
    ensures r != open <==> i in listening && ClickToggles(ev)
  {
    if i in listening && ClickToggles(ev) then !open else open
  }

  /** Two identical clicks leave the card as it was; links and SUMMARY contents never move it. */
  lemma {:induction false} ClickTwiceRestores(open: bool, tags: seq<string>, i: nat, ev: ClickEvent)
    ensures OpenAfterClick(OpenAfterClick(open, Listening(tags), i, ev), Listening(tags), i, ev) == open
    ensures i < |tags| && tags[i] == "SUMMARY" ==> OpenAfterClick(open, Listening(tags), i, ev) == open
    ensures ev.targetTag == "A" ==> OpenAfterClick(open, Listening(tags), i, ev) == open
  {
  }

  /** A `.project-card-container` details element. */
  class ProjectCard {
    var open: bool
    /** The visibility of each `.norepo` element inside the card. */
    var norepo: seq<string>
    /** The tag of each `.project-card-content` element inside the card. */
    const contentTags: seq<string>
    /** The contents that have a click listener. */
    var listening: set<nat>

    constructor (open: bool, norepo: seq<string>, contentTags: seq<string>)
      ensures this.open == open && this.norepo == norepo && this.contentTags == contentTags
      ensures listening == {}
    {
      this.open := open;
      this.norepo := norepo;
      this.contentTags := contentTags;
      listening := {};
    }

    /** A click on content `i`, dispatched to its listener if it has one. */
    method ContentClick(i: nat, ev: ClickEvent)
      modifies this
      ensures open == OpenAfterClick(old(open), listening, i, ev)
      ensures norepo == old(norepo) && listening == old(listening)
    {
      if i !in listening {
        return;
      }
      if ev.targetTag == "A" {
        return;
      }
      if ev.targetInside && ev.selectionInside {
        return;
      }
      open := !open;
    }
  }

  /**
   * `addProjectEvents`: nothing for a missing card; otherwise every `.norepo`
   * visibility is flipped and every non-SUMMARY content gets its listener.
   */
  method AddProjectEvents(card: ProjectCard?)
    modifies card
    ensures card != null ==> card.open == old(card.open)
    ensures card != null ==> |card.norepo| == |old(card.norepo)|
    ensures card != null ==>
      forall k :: 0 <= k < |card.norepo| ==> card.norepo[k] == FlipVisibility(old(card.norepo)[k])
    ensures card != null ==> card.listening == old(card.listening) + Listening(card.contentTags)
  {
    if card == null {
      return;
    }
    var i := 0;
    while i < |card.norepo|
      invariant 0 <= i <= |card.norepo| == |old(card.norepo)|
      invariant forall k :: 0 <= k < i ==> card.norepo[k] == FlipVisibility(old(card.norepo)[k])
      invariant forall k :: i <= k < |card.norepo| ==> card.norepo[k] == old(card.norepo)[k]
      invariant card.open == old(card.open) && card.listening == old(card.listening)
    {
      card.norepo := card.norepo[i := FlipVisibility(card.norepo[i])];
      i := i + 1;
    }
    var j := 0;
    while j < |card.contentTags|
      invariant 0 <= j <= |card.contentTags|
      invariant card.listening == old(card.listening) + Listening(card.contentTags[..j])
      invariant card.open == old(card.open)
      invariant |card.norepo| == |old(card.norepo)|
      invariant forall k :: 0 <= k < |card.norepo| ==> card.norepo[k] == FlipVisibility(old(card.norepo)[k])
    {
      assert card.contentTags[..j + 1][..j] == card.contentTags[..j];
      if card.contentTags[j] != "SUMMARY" {
        card.listening := card.listening + {j};
      }
      j := j + 1;
    }
    assert card.contentTags[..j] == card.contentTags;
  }

  // ---------------------------------------------------------------------
  // The URL fragment
  // ---------------------------------------------------------------------

  /** An element with an id: its tag, its `open` flag, and how many `click()` calls it has had. */
  datatype Element = Element(tagName: string, open: bool, clicks: nat)

  /** The element id a fragment names: the fragment without its leading "#". */
  function FragmentId(hash: string): (id: string)
    ensures hash == "" ==> id == ""
    ensures hash != "" && hash[0] == '#' ==> "#" + id == hash
  {
    if hash == "" then "" else hash[1..]
  }

  /** `getElementById` on the elements by id (never an element for ""). */
  function Lookup(elements: map<string, Element>, id: string): (r: Option<Element>)
    ensures r.Some? <==> id != "" && id in elements
    ensures r.Some? ==> r.value == elements[id]
  {
    if id != "" && id in elements then Some(elements[id]) else None
  }

  /**
   * The first load listener's fragment rule: the element named by the
   * fragment is opened when it is a DETAILS element and clicked otherwise.
   */
  function AfterLoadHash(elements: map<string, Element>, hash: string): (r: map<string, Element>)
    ensures r.Keys == elements.Keys
    ensures forall id :: id in elements && id != FragmentId(hash) ==> r[id] == elements[id]
    ensures Lookup(elements, FragmentId(hash)).None? ==> r == elements
    ensures var id := FragmentId(hash);
      Lookup(elements, id).Some? && elements[id].tagName == "DETAILS" ==>
        r[id] == elements[id].(open := true)
    ensures var id := FragmentId(hash);
      Lookup(elements, id).Some? && elements[id].tagName != "DETAILS" ==>
        r[id] == elements[id].(clicks := elements[id].clicks + 1)
  {
    var id := FragmentId(hash);
    match Lookup(elements, id)
    case None => elements
    case Some(e) =>
      if e.tagName != "DETAILS" then elements[id := e.(clicks := e.clicks + 1)]
      else elements[id := e.(open := true)]
  }

  /** A fragment naming a DETAILS card leaves it open, however often the page loads. */
  lemma {:induction false} LoadHashOpens(elements: map<string, Element>, hash: string)
    requires Lookup(elements, FragmentId(hash)).Some? && elements[FragmentId(hash)].tagName == "DETAILS"
    ensures AfterLoadHash(elements, hash)[FragmentId(hash)].open
    ensures AfterLoadHash(AfterLoadHash(elements, hash), hash) == AfterLoadHash(elements, hash)
  {
    var once := AfterLoadHash(elements, hash);
    var id := FragmentId(hash);
    assert once[id].tagName == "DETAILS";
  }

  /**
   * The hashchange listener clicks the element the fragment names, whatever
   * its tag; with no such element the `click` on null throws a TypeError.
   */
  function AfterHashChange(elements: map<string, Element>, hash: string): (r: Result<map<string, Element>>)
    ensures r.Err? <==> Lookup(elements, FragmentId(hash)).None?
    ensures r.Ok? ==> r.value.Keys == elements.Keys
    ensures r.Ok? ==>
      forall id :: id in elements ==>
        r.value[id] == if id == FragmentId(hash) then elements[id].(clicks := elements[id].clicks + 1) else elements[id]
  {
    var id := FragmentId(hash);
    match Lookup(elements, id)
    case None => Err("TypeError: cannot read properties of null (reading 'click')")
    case Some(e) => Ok(elements[id := e.(clicks := e.clicks + 1)])
  }

  /** A fragment naming a DETAILS card opens it at load, but a later change to it only clicks it. */
  lemma HashChangeDoesNotOpen(elements: map<string, Element>, hash: string)
    requires Lookup(elements, FragmentId(hash)).Some?
    ensures AfterHashChange(elements, hash).Ok?
    ensures AfterHashChange(elements, hash).value[FragmentId(hash)].open == elements[FragmentId(hash)].open
  {
  }

  /** The page's elements by id. */
  class Document {
    var elements: map<string, Element>

    constructor (elements: map<string, Element>)
      ensures this.elements == elements
    {
      this.elements := elements;
    }

    /** The fragment part of the first load listener; a falsy fragment does nothing. */
    method OnLoadHash(hash: string)
      modifies this
      ensures elements == AfterLoadHash(old(elements), hash)
    {
      if hash == "" {
        return;
      }
      var id := hash[1..];
      if id == "" || id !in elements {
        return;
      }
      var details := elements[id];
      if details.tagName != "DETAILS" {
        elements := elements[id := details.(clicks := details.clicks + 1)];
      } else {
        elements := elements[id := details.(open := true)];
      }
    }

    /** The hashchange listener; on a missing element it throws and changes nothing. */
    method OnHashChange(hash: string) returns (r: Result<()>)
      modifies this
      ensures r.Err? <==> AfterHashChange(old(elements), hash).Err?
      ensures r.Ok? ==> elements == AfterHashChange(old(elements), hash).value
      ensures r.Err? ==> elements == old(elements)
    {
      var id := FragmentId(hash);
      if id == "" || id !in elements {
        return Err("TypeError: cannot read properties of null (reading 'click')");
      }
      var target := elements[id];
      elements := elements[id := target.(clicks := target.clicks + 1)];
      return Ok(());
    }
  }
}

=== FILE: text_utils.dfy ===
/**
 * The string helpers of src/js/index.js: cookies, title case, the `.html`
 * rewrite of anchors, and the digit table.
 */
module TextUtils {
  import opened Wrappers
  import opened JsStrings

  // ---------------------------------------------------------------------------
  // Cookies

  /** A cookie segment with its leading spaces (and only those) removed. */
  function TrimLeadingSpaces(s: string): (r: string)
    ensures |r| <= |s| && s[|s| - |r|..] == r
    ensures r == [] || r[0] != ' '
    ensures forall i :: 0 <= i < |s| - |r| ==> s[i] == ' '
  {
    if s != [] && s[0] == ' ' then TrimLeadingSpaces(s[1..]) else s
  }

  /** The value after `key` in the first segment that starts with it, or `""`. */
  function CookieValue(segments: seq<string>, key: string): (r: string)
    // a non-empty value is what follows `key` in one of the trimmed segments
    ensures r != "" ==> exists i :: 0 <= i < |segments| && TrimLeadingSpaces(segments[i]) == key + r
  {
    if segments == [] then ""
    else
      var seg := TrimLeadingSpaces(segments[0]);
      if StartsWith(seg, key) then
        assert seg == key + seg[|key|..];
        seg[|key|..]
      else
        var rest := CookieValue(segments[1..], key);
        assert rest != "" ==> exists i :: 0 <= i < |segments| && TrimLeadingSpaces(segments[i]) == key + rest by {
          if rest != "" {
            var j :| 0 <= j < |segments| - 1 && TrimLeadingSpaces(segments[1..][j]) == key + rest;
            assert segments[1..][j] == segments[j + 1];
          }
        }
        rest
  }

  /** The inner loop of `getCookie`: drop one leading space at a time. */
  method SkipSpaces(segment: string) returns (trimmed: string)
    ensures trimmed == TrimLeadingSpaces(segment)
  {
    trimmed := segment;
    while |trimmed| > 0 && trimmed[0] == ' '
      invariant TrimLeadingSpaces(trimmed) == TrimLeadingSpaces(segment)
    {
      trimmed := trimmed[1..];
    }
  }

  /**
   * `getCookie(name)` on the (already URI-decoded) cookie string: split on ";",
   * strip leading spaces from each segment, and return the rest of the first
   * segment that starts with `name + "="`.
   */
  method GetCookie(cookie: string, name: string) returns (value: string)
    ensures value == CookieValue(Split(cookie, ';'), name + "=")
  {
    value := ScanSegments(Split(cookie, ';'), name + "=");
  }

  /** The `for` loop of `getCookie` over the ";" segments, looking for `key`. */
  method ScanSegments(segments: seq<string>, key: string) returns (value: string)
    ensures value == CookieValue(segments, key)
  {
    var i := 0;
    while i < |segments|
      invariant 0 <= i <= |segments|
      invariant CookieValue(segments[i..], key) == CookieValue(segments, key)
    {
      var segment := SkipSpaces(segments[i]);
      ScanStep(segments, key, i, segment);
      if IndexOf(segment, key) == 0 {
        return segment[|key|..];
      }
      i := i + 1;
    }
    value := "";
  }

  /** One step of the scan: the segment at `i` either matches or passes the search on. */
  lemma CookieValueStep(segments: seq<string>, key: string, i: nat)
    requires i < |segments|
    ensures var seg := TrimLeadingSpaces(segments[i]);
      CookieValue(segments[i..], key) == if StartsWith(seg, key) then seg[|key|..] else CookieValue(segments[i + 1..], key)
  {
    assert segments[i..][0] == segments[i] && segments[i..][1..] == segments[i + 1..];
  }

  /** One iteration of `getCookie`'s loop, phrased with the `indexOf` test the source uses. */
  lemma ScanStep(segments: seq<string>, key: string, i: nat, segment: string)
    requires i < |segments| && segment == TrimLeadingSpaces(segments[i])
    ensures IndexOf(segment, key) == 0 ==> CookieValue(segments[i..], key) == segment[|key|..]
    ensures IndexOf(segment, key) != 0 ==> CookieValue(segments[i..], key) == CookieValue(segments[i + 1..], key)
  {
    CookieValueStep(segments, key, i);
    IndexOfZero(segment, key);
  }

  /** The segment at `i` wins when it is the first whose trimmed form starts with `key`. */
  lemma {:induction false} CookieValueFirstMatch(segments: seq<string>, key: string, i: nat)
    requires i < |segments| && StartsWith(TrimLeadingSpaces(segments[i]), key)
    requires forall j :: 0 <= j < i ==> !StartsWith(TrimLeadingSpaces(segments[j]), key)
    ensures CookieValue(segments, key) == TrimLeadingSpaces(segments[i])[|key|..]
  {
    if i > 0 {
      forall j | 0 <= j < i - 1
        ensures !StartsWith(TrimLeadingSpaces(segments[1..][j]), key)
      {
        assert segments[1..][j] == segments[j + 1];
      }
      assert segments[1..][i - 1] == segments[i];
      CookieValueFirstMatch(segments[1..], key, i - 1);
    }
  }

  /** Without a matching segment the result is `""`. */
  lemma {:induction false} CookieValueNoMatch(segments: seq<string>, key: string)
    requires forall j :: 0 <= j < |segments| ==> !StartsWith(TrimLeadingSpaces(segments[j]), key)
    ensures CookieValue(segments, key) == ""
  {
    if segments != [] {
      forall j | 0 <= j < |segments| - 1
        ensures !StartsWith(TrimLeadingSpaces(segments[1..][j]), key)
      {
        assert segments[1..][j] == segments[j + 1];
      }
      CookieValueNoMatch(segments[1..], key);
    }
  }

  /**
   * A cookie whose name merely starts with `name` is not `name`'s cookie: the
   * key includes the "=", so "user" does not pick up "username=...".
   */
  lemma LongerNameDoesNotMatch(name: string, suffix: string, value: string)
    requires suffix != "" && suffix[0] != '='
    ensures !StartsWith(name + suffix + "=" + value, name + "=")
  {
    var seg := name + suffix + "=" + value;
    assert seg[|name|] == suffix[0];
  }

  /** The string `setCookie(name, value)` assigns to `document.cookie` when no expiry is given. */
  function SessionCookie(name: string, value: string): (c: string)
    ensures EndsWith(c, ";path=/")
  {
    name + "=" + value + ";path=/"
  }

  /**
   * `getCookie` reads back what `setCookie` wrote. The name must be non-empty,
   * both must be free of ";" and tabs, and neither may start or end with a
   * space, since cookie parsing (section 5.2 of RFC 6265) trims those; neither
   * may hold a "%", which `decodeURIComponent` would rewrite or reject.
   */
  lemma {:induction false} SessionCookieRoundTrip(name: string, value: string)
    requires ';' !in name && ';' !in value
    requires '%' !in name && '%' !in value
    requires name != "" && name[0] != ' ' && name[|name| - 1] != ' '
    requires '\t' !in name && '\t' !in value
    requires value == "" || (value[0] != ' ' && value[|value| - 1] != ' ')
    ensures CookieValue(Split(SessionCookie(name, value), ';'), name + "=") == value
  {
    var pair := name + "=" + value;
    assert ';' !in pair by {
      assert forall c :: c in pair ==> c in name || c == '=' || c in value;
    }
    assert Join([pair, "path=/"], ";") == SessionCookie(name, value);
    SplitJoin([pair, "path=/"], ';');
    assert pair[0] != ' ';
    assert TrimLeadingSpaces(pair) == pair;
    assert StartsWith(pair, name + "=");
  }

  // ---------------------------------------------------------------------------
  // Title case

  /** `word.charAt(0).toUpperCase() + word.slice(1)` */
  function Capitalize(word: string): (r: string)
    ensures |r| == |word|
    ensures word != [] ==> r[0] == UpperChar(word[0]) && r[1..] == word[1..]
  {
    if word == [] then [] else ToUpper(word[..1]) + word[1..]
  }

  function CapitalizeAll(words: seq<string>): (r: seq<string>)
    ensures |r| == |words|
    ensures forall k :: 0 <= k < |words| ==> r[k] == Capitalize(words[k])
  {
    seq(|words|, k requires 0 <= k < |words| => Capitalize(words[k]))
  }

  /** `toTitleCase(s, sep)` for a one-character separator. */
  function ToTitleCase(s: string, sep: char): (r: string)
    // the piecewise map-and-join agrees with the character-by-character reading
    ensures r == TitleChars(ToLower(s), sep, true)
    ensures |r| == |s|
  {
    CapitalizedJoin(ToLower(s), sep);
    Join(CapitalizeAll(Split(ToLower(s), sep)), " ")
  }

  /**
   * The title case of `t` read character by character: each separator becomes
   * a space, and a character right after a separator (or first, when `start`)
   * is upper-cased.
   */
  function TitleChars(t: string, sep: char, start: bool): (r: string)
    ensures |r| == |t|
  {
    if t == [] then []
    else if t[0] == sep then [' '] + TitleChars(t[1..], sep, true)
    else [if start then UpperChar(t[0]) else t[0]] + TitleChars(t[1..], sep, false)
  }

  /** The pieces as `toTitleCase` maps them, except that the first is capitalized only when `start`. */
  function MapPieces(pieces: seq<string>, start: bool): seq<string> {
    if pieces == [] then []
    else [if start then Capitalize(pieces[0]) else pieces[0]] + CapitalizeAll(pieces[1..])
  }

  lemma JoinAppendHead(a: string, b: string, rest: seq<string>, sep: string)
    ensures Join([a + b] + rest, sep) == a + Join([b] + rest, sep)
  {
    if rest != [] {
      JoinCons(a + b, rest, sep);
      JoinCons(b, rest, sep);
    }
  }

  lemma {:induction false} TitleCharsIsJoin(t: string, sep: char, start: bool)
    ensures Join(MapPieces(Split(t, sep), start), " ") == TitleChars(t, sep, start)
  {
    if t != [] {
      var rest := Split(t[1..], sep);
      if t[0] == sep {
        TitleCharsIsJoin(t[1..], sep, true);
        assert MapPieces(Split(t, sep), start) == [""] + CapitalizeAll(rest);
        assert MapPieces(rest, true) == CapitalizeAll(rest);
        JoinCons("", CapitalizeAll(rest), " ");
      } else {
        TitleCharsIsJoin(t[1..], sep, false);
        var c := if start then UpperChar(t[0]) else t[0];
        var tail := CapitalizeAll(rest[1..]);
        var head := [t[0]] + rest[0];
        assert Capitalize(head) == [UpperChar(t[0])] + rest[0] by {
          assert head[1..] == rest[0];
        }
        assert MapPieces(Split(t, sep), start) == [[c] + rest[0]] + tail;
        assert MapPieces(rest, false) == [rest[0]] + tail;
        JoinAppendHead([c], rest[0], tail, " ");
      }
    }
  }

  lemma {:induction false} TitleCharsAt(t: string, sep: char, start: bool, i: nat)
    requires i < |t|
    ensures TitleChars(t, sep, start)[i] ==
      if t[i] == sep then ' '
      else if (if i == 0 then start else t[i - 1] == sep) then UpperChar(t[i])
      else t[i]
  {
    if i > 0 {
      TitleCharsAt(t[1..], sep, t[0] == sep, i - 1);
    }
  }

  /** Capitalizing every piece and joining with spaces reads `t` character by character. */
  lemma CapitalizedJoin(t: string, sep: char)
    ensures Join(CapitalizeAll(Split(t, sep)), " ") == TitleChars(t, sep, true)
  {
    MapPiecesFromStart(Split(t, sep));
    TitleCharsIsJoin(t, sep, true);
  }

  /** From the start of the string, every piece is capitalized. */
  lemma MapPiecesFromStart(pieces: seq<string>)
    ensures MapPieces(pieces, true) == CapitalizeAll(pieces)
  {
    if pieces != [] {
      var m := MapPieces(pieces, true);
      forall k | 0 <= k < |pieces|
        ensures m[k] == CapitalizeAll(pieces)[k]
      {
        if k > 0 {
          assert m[k] == CapitalizeAll(pieces[1..])[k - 1];
        }
      }
    }
  }

  /**
   * `toTitleCase` keeps the length; after lower-casing, each separator becomes a
   * space and the character after a separator (and the first) is upper-cased.
   */
  lemma {:induction false} ToTitleCaseAt(s: string, sep: char, i: nat)
    requires i < |s|
    ensures |ToTitleCase(s, sep)| == |s|
    ensures ToTitleCase(s, sep)[i] ==
      if LowerChar(s[i]) == sep then ' '
      else if i == 0 || LowerChar(s[i - 1]) == sep then UpperChar(LowerChar(s[i]))
      else LowerChar(s[i])
  {
    TitleCharsAt(ToLower(s), sep, true, i);
  }

  /** With a separator that lower-casing leaves alone, every separator of the input becomes a space. */
  lemma SeparatorBecomesSpace(s: string, sep: char, i: nat)
    requires i < |s| && s[i] == sep && !('A' <= sep <= 'Z')
    ensures |ToTitleCase(s, sep)| == |s|
    ensures ToTitleCase(s, sep)[i] == ' '
  {
    ToTitleCaseAt(s, sep, i);
  }

  /** An upper-case separator can never match after lower-casing: no space is inserted anywhere. */
  lemma {:induction false} UpperCaseSeparatorNeverSplits(s: string, sep: char)
    requires 'A' <= sep <= 'Z'
    ensures ToTitleCase(s, sep) == Capitalize(ToLower(s))
  {
    var t := ToLower(s);
    assert sep !in t;
    SplitFree(t, sep);
    assert CapitalizeAll([t]) == [Capitalize(t)];
  }

  // ---------------------------------------------------------------------------
  // The .html rewrite

  /** The rewrite `removeHTMLFrom` applies to one href. */
  function StripHtml(href: string): (r: string)
    // "index.html" goes as a whole; otherwise one ".html" goes, if there is one
    ensures EndsWith(href, "index.html") ==> |r| == |href| - 10
    ensures !EndsWith(href, "index.html") ==> r == href || |r| == |href| - 5
  {
    if EndsWith(href, "index.html") then
      EndsWithIndexHasHtml(href);
      ReplaceFirst(href, "index.html", "")
    else ReplaceFirst(href, ".html", "")
  }

  lemma EndsWithIndexHasHtml(href: string)
    requires EndsWith(href, "index.html")
    ensures Contains(href, ".html") && Contains(href, "index.html")
  {
    assert OccursAt(href, ".html", |href| - 5);
    assert OccursAt(href, "index.html", |href| - 10);
  }

  /** An href without ".html" is left as it is. */
  lemma NoHtmlUnchanged(href: string)
    requires !Contains(href, ".html")
    ensures StripHtml(href) == href
  {
    if EndsWith(href, "index.html") {
      EndsWithIndexHasHtml(href);
    }
  }

  /**
   * An href ending in "index.html" loses the FIRST "index.html" it contains;
   * any other href loses its first ".html".
   */
  lemma StripHtmlRemovesFirst(href: string)
    requires Contains(href, ".html")
    ensures EndsWith(href, "index.html") ==> Contains(href, "index.html")
    ensures EndsWith(href, "index.html") ==>
      var i := IndexOf(href, "index.html");
      StripHtml(href) == href[..i] + href[i + 10..]
    ensures !EndsWith(href, "index.html") ==>
      var i := IndexOf(href, ".html");
      StripHtml(href) == href[..i] + href[i + 5..]
  {
    if EndsWith(href, "index.html") {
      EndsWithIndexHasHtml(href);
      var i := IndexOf(href, "index.html");
      assert href[..i] + "" == href[..i];
    } else {
      var i := IndexOf(href, ".html");
      assert href[..i] + "" == href[..i];
    }
  }

  /** A page link loses its ".html" when that is its only occurrence. */
  lemma StripPageExtension(base: string)
    requires !Contains(base + ".htm", ".html")
    requires !EndsWith(base, "index")
    ensures StripHtml(base + ".html") == base
  {
    var href := base + ".html";
    EndsWithCommonSuffix(base, "index", ".html");
    assert "index" + ".html" == "index.html";
    assert !EndsWith(href, "index.html");
    assert href == (base + ".htm") + "l";
    assert OccursAt(href, ".html", |base|);
    FirstOccurrenceAtEnd(base + ".htm", "l", ".html", |base|);
    assert href[..|base|] == base && href[|base| + 5..] == "";
  }

  /** A directory's index link loses "index.html" when ".html" occurs only at the end. */
  lemma StripIndexPage(dir: string)
    requires !Contains(dir + "index.htm", ".html")
    ensures StripHtml(dir + "index.html") == dir
  {
    var href := dir + "index.html";
    assert href == (dir + "index.htm") + "l";
    assert EndsWith(href, "index.html");
    assert OccursAt(href, "index.html", |dir|);
    forall j: nat | j < |dir|
      ensures !OccursAt(href, "index.html", j)
    {
      if OccursAt(href, "index.html", j) {
        assert href[j + 5..j + 10] == ".html";
        assert OccursAt(href, ".html", j + 5);
        OccursInPrefix(dir + "index.htm", "l", ".html", j + 5);
        assert false;
      }
    }
    assert IndexOf(href, "index.html") == |dir|;
    assert href[..|dir|] == dir;
  }

  /** `anchor.href.host` reads a property of a string, which is undefined. */
  function HostOfHref(href: string): Option<string> {
    None
  }

  /** `hostnames.includes(host)` */
  predicate Includes(hostnames: seq<string>, host: Option<string>) {
    host.Some? && host.value in hostnames
  }

  /** The host names `removeHTMLFrom` is asked to skip. */
  const LocalHosts := ["localhost", "", "127.0.0.1"]

  /**
   * `removeHTMLFrom(...hostnames)` over the hrefs of the page's anchors. The
   * host test never skips an anchor, so every href is rewritten.
   */
  method RemoveHtmlFrom(hrefs: array<string>, hostnames: seq<string>)
    modifies hrefs
    ensures forall k :: 0 <= k < hrefs.Length ==> hrefs[k] == StripHtml(old(hrefs[k]))
  {
    ghost var original := hrefs[..];
    var i := 0;
    while i < hrefs.Length
      invariant 0 <= i <= hrefs.Length
      invariant forall k :: 0 <= k < i ==> hrefs[k] == StripHtml(original[k])
      invariant forall k :: i <= k < hrefs.Length ==> hrefs[k] == original[k]
    {
      RewriteHref(hrefs, i, hostnames);
      i := i + 1;
    }
  }

  /** One pass of `removeHTMLFrom`'s loop: the href at `i` is rewritten unless its host is skipped. */
  method RewriteHref(hrefs: array<string>, i: nat, hostnames: seq<string>)
    requires i < hrefs.Length
    modifies hrefs
    ensures hrefs[i] == StripHtml(old(hrefs[i]))
    ensures forall k :: 0 <= k < hrefs.Length && k != i ==> hrefs[k] == old(hrefs[k])
  {
    var href := hrefs[i];
    if Includes(hostnames, HostOfHref(href)) {
      return;
    }
    hrefs[i] := StripHtml(href);
  }

  /** The load handler: the rewrite runs unless the page is served from a local host. */
  method OnLoadRewrite(hostname: string, hrefs: array<string>)
    modifies hrefs
    ensures hostname in LocalHosts ==> hrefs[..] == old(hrefs[..])
    ensures hostname !in LocalHosts ==>
      forall k :: 0 <= k < hrefs.Length ==> hrefs[k] == StripHtml(old(hrefs[k]))
  {
    if hostname !in LocalHosts {
      RemoveHtmlFrom(hrefs, LocalHosts);
    }
  }

  // ---------------------------------------------------------------------------
  // Digits

  const DigitWords: seq<string> :=
    ["zero", "one", "two", "three", "four", "five", "six", "seven", "eight", "nine"]

  /** `digitToWord[d]`: the English word for a digit, undefined outside 0..9. */
  function DigitToWord(d: int): (r: Option<string>)
    ensures r.Some? <==> 0 <= d < 10
    ensures r.Some? ==> r.value != ""
  {
    if 0 <= d < |DigitWords| then Some(DigitWords[d]) else None
  }

  /** The position of `w` in the table, if any. */
  function WordToDigit(w: string): (r: Option<nat>)
    ensures r.Some? ==> r.value < 10 && DigitWords[r.value] == w
    ensures r.None? ==> w !in DigitWords
  {
    IndexIn(DigitWords, w, 0)
  }

  function IndexIn(words: seq<string>, w: string, from: nat): (r: Option<nat>)
    requires from <= |words|
    decreases |words| - from
    ensures r.Some? ==> from <= r.value < |words| && words[r.value] == w
    ensures r.None? ==> w !in words[from..]
  {
    if from == |words| then None
    else if words[from] == w then Some(from)
    else IndexIn(words, w, from + 1)
  }

  /** No word appears twice in the table. */
  lemma DigitWordsDistinct()
    ensures forall i, j :: 0 <= i < j < |DigitWords| ==> DigitWords[i] != DigitWords[j]
  {
  }

  /** The table is a bijection between 0..9 and its words. */
  lemma {:induction false} DigitWordRoundTrip(d: int, w: string)
    ensures DigitToWord(d).Some? ==> WordToDigit(DigitToWord(d).value) == Some(d)
    ensures WordToDigit(w).Some? ==> DigitToWord(WordToDigit(w).value) == Some(w)
  {
    DigitWordsDistinct();
  }
}

=== FILE: theme_state.dfy ===
/**
 * The colour-mode state of every page (src/js/index.js, class Theme and main).
 *
 * A Theme object holds one string and is never changed after construction;
 * what changes is the page: the `data-mode` attribute of the root element and
 * the "theme" entry of sessionStorage. Both live in the class `Root`; the
 * functions below read a snapshot of them, an `Env`.
 */
module ThemeState {
  import opened Wrappers

  const Dark := "dark"
  const Light := "light"

  /** The sessionStorage key the theme is saved under. */
  const ThemeKey := "theme"

  const DarkQuery := "(prefers-color-scheme: dark)"
  const LightQuery := "(prefers-color-scheme: light)"

  /** The media queries `systemTheme` tries, in this order, with the theme each one stands for. */
  const Schemes: seq<(string, string)> := [(DarkQuery, Dark), (LightQuery, Light)]

  /** Font Awesome's moon (shown in dark mode) and sun glyphs. */
  const MoonGlyph := "\U{F186}"
  const SunGlyph := "\U{F185}"

  /** The paths on which `main` forces dark mode. */
  const LandingPaths := ["/index.html", "/"]

  /** A Theme object. `""` stands for every falsy value (undefined, null, ""). */
  datatype Theme = Theme(theme: string)

  /**
   * What the Theme code can see of the page: the root's `data-mode` (`""` when
   * unset), sessionStorage, and the media queries that currently match.
   */
  datatype Env = Env(dataMode: string, session: map<string, string>, matchingQueries: set<string>)

  /** `storage.getItem(key)`, with `""` for null. */
  function GetItem(store: map<string, string>, key: string): (r: string)
    ensures key !in store ==> r == ""
    ensures key in store ==> r == store[key]
  {
    if key in store then store[key] else ""
  }

  /** `new Theme(name)`: the guard rejects exactly the falsy names, so "blue" is accepted. */
  function NewTheme(name: string): (r: Result<Theme>)
    ensures r.Ok? <==> name != ""
    ensures r.Ok? ==> r.value.theme == name
  {
    if name == "" then Err("theme must be set") else Ok(Theme(name))
  }

  /** The theme `reverse` switches to: "light" from "dark", "dark" from anything else. */
  function Opposite(name: string): (r: string)
    ensures r == Light <==> name == Dark
    ensures r == Dark <==> name != Dark
  {
    if name == Dark then Light else Dark
  }

  /** The theme of the first scheme whose query matches, or `""` (undefined) when none does. */
  function FirstMatch(schemes: seq<(string, string)>, matching: set<string>): (r: string)
    ensures r == "" || exists k :: 0 <= k < |schemes| && schemes[k].0 in matching && schemes[k].1 == r
    // no matching scheme gives undefined
    ensures (forall k :: 0 <= k < |schemes| ==> schemes[k].0 !in matching) ==> r == ""
    // the first matching scheme wins
    ensures forall k :: (0 <= k < |schemes| && schemes[k].0 in matching &&
                         (forall j :: 0 <= j < k ==> schemes[j].0 !in matching)) ==> r == schemes[k].1
  {
    assert forall k :: 1 <= k < |schemes| ==> schemes[k] == schemes[1..][k - 1];
    if schemes == [] then ""
    else if schemes[0].0 in matching then schemes[0].1
    else FirstMatch(schemes[1..], matching)
  }

  /** `Theme.systemTheme`: the dark query is asked before the light one. */
  function SystemTheme(env: Env): (r: string)
    ensures r == Dark <==> DarkQuery in env.matchingQueries
    ensures r == Light <==> DarkQuery !in env.matchingQueries && LightQuery in env.matchingQueries
    ensures r == "" <==> DarkQuery !in env.matchingQueries && LightQuery !in env.matchingQueries
  {
    var m := env.matchingQueries;
    assert Schemes[1..][1..] == [];
    assert FirstMatch(Schemes[1..], m) == if LightQuery in m then Light else "";
    assert FirstMatch(Schemes, m) == if DarkQuery in m then Dark else FirstMatch(Schemes[1..], m);
    assert |Dark| != |Light|;
    FirstMatch(Schemes, env.matchingQueries)
  }

  /** `Theme.activeTheme`: the root attribute, else the system preference. */
  function ActiveTheme(env: Env): (r: string)
    ensures env.dataMode != "" ==> r == env.dataMode
    ensures env.dataMode == "" ==> r == SystemTheme(env)
  {
    if env.dataMode != "" then env.dataMode else SystemTheme(env)
  }

  /** The glyph for a theme name: the moon for "dark", the sun for anything else. */
  function IconFor(name: string): (r: string)
    ensures r == MoonGlyph <==> name == Dark
    ensures r == SunGlyph <==> name != Dark
  {
    if name == Dark then MoonGlyph else SunGlyph
  }

  /** The instance getter `unicodeIcon`. */
  function Icon(t: Theme): (r: string)
    ensures r == MoonGlyph <==> t.theme == Dark
    ensures r == MoonGlyph || r == SunGlyph
  {
    IconFor(t.theme)
  }

  /** The static getter `Theme.unicodeIcon`, from the active theme. */
  function ActiveIcon(env: Env): (r: string)
    ensures r == MoonGlyph <==> ActiveTheme(env) == Dark
    ensures r == MoonGlyph || r == SunGlyph
  {
    IconFor(ActiveTheme(env))
  }

  /** The `||` chain: the first truthy candidate, or `""` when all are falsy. */
  function FirstNonEmpty(candidates: seq<string>): (r: string)
    ensures r == "" <==> forall k :: 0 <= k < |candidates| ==> candidates[k] == ""
    ensures r != "" ==> exists k :: 0 <= k < |candidates| && candidates[k] == r &&
                          forall j :: 0 <= j < k ==> candidates[j] == ""
  {
    if candidates == [] then ""
    else if candidates[0] != "" then candidates[0]
    else
      var r := FirstNonEmpty(candidates[1..]);
      assert forall k :: 1 <= k < |candidates| ==> candidates[k] == candidates[1..][k - 1];
      r
  }

  /** The candidate at `k` wins when every earlier one is falsy. */
  lemma {:induction false} FirstNonEmptyAt(candidates: seq<string>, k: nat)
    requires k < |candidates| && candidates[k] != ""
    requires forall j :: 0 <= j < k ==> candidates[j] == ""
    ensures FirstNonEmpty(candidates) == candidates[k]
  {
    if k > 0 {
      FirstNonEmptyAt(candidates[1..], k - 1);
    }
  }

  /** The sources `fromExisting` consults, highest priority first. */
  function ThemeSources(env: Env): seq<string> {
    [env.dataMode, GetItem(env.session, ThemeKey), SystemTheme(env), Light]
  }

  /**
   * `Theme.fromExisting()`: the root attribute, else the saved theme, else the
   * system preference, else "light". The constructor guard never fires.
   */
  function FromExisting(env: Env): (r: Result<Theme>)
    ensures r.Ok? && r.value.theme != ""
    ensures env.dataMode != "" ==> r.value.theme == env.dataMode
    ensures env.dataMode == "" && GetItem(env.session, ThemeKey) != "" ==>
      r.value.theme == env.session[ThemeKey]
    ensures env.dataMode == "" && GetItem(env.session, ThemeKey) == "" && SystemTheme(env) != "" ==>
      r.value.theme == SystemTheme(env)
    ensures env.dataMode == "" && GetItem(env.session, ThemeKey) == "" && SystemTheme(env) == "" ==>
      r.value.theme == Light
  {
    var sources := ThemeSources(env);
    var k := if sources[0] != "" then 0 else if sources[1] != "" then 1 else if sources[2] != "" then 2 else 3;
    FirstNonEmptyAt(sources, k);
    NewTheme(FirstNonEmpty(sources))
  }

  /** `reverse`'s result: its own guard, then the opposite theme. */
  function Reversed(t: Theme): (r: Result<Theme>)
    ensures r.Ok? <==> t.theme != ""
    ensures r.Ok? ==> r.value.theme == Opposite(t.theme)
  {
    if t.theme == "" then Err("must set theme to reverse it") else NewTheme(Opposite(t.theme))
  }

  /** The page after `t.set(save)`. */
  function AfterSet(env: Env, t: Theme, save: bool): (r: Env)
    ensures r.dataMode == t.theme
    ensures save ==> ThemeKey in r.session && r.session[ThemeKey] == t.theme
    ensures !save ==> r.session == env.session
    ensures forall k :: k in env.session && (k != ThemeKey || !save) ==> k in r.session && r.session[k] == env.session[k]
    ensures r.session.Keys <= env.session.Keys + {ThemeKey}
    ensures r.matchingQueries == env.matchingQueries
  {
    env.(dataMode := t.theme,
         session := if save then env.session[ThemeKey := t.theme] else env.session)
  }

  /** The page after `main`'s theme rule on the given pathname. */
  function AfterMain(env: Env, pathname: string): (r: Env)
    ensures r.session == env.session && r.matchingQueries == env.matchingQueries
    ensures r.dataMode != ""
    ensures pathname in LandingPaths ==> r.dataMode == Dark
    ensures pathname !in LandingPaths && env.dataMode != "" ==> r.dataMode == env.dataMode
  {
    if pathname !in LandingPaths then AfterSet(env, FromExisting(env).value, false)
    else AfterSet(env, Theme(Dark), false)
  }

  /** Every Theme the constructor accepts can be reversed: `reverse`'s guard never fires. */
  lemma ReverseGuardNeverFires(name: string)
    requires NewTheme(name).Ok?
    ensures Reversed(NewTheme(name).value).Ok?
  {
  }

  /** Reversing twice restores "dark" and "light". */
  lemma ReverseTwice(t: Theme)
    requires t.theme == Dark || t.theme == Light
    ensures Reversed(t).Ok? && Reversed(Reversed(t).value) == Ok(t)
  {
  }

  /** Any other theme, such as "blue", is accepted and comes back as "light" after two reversals. */
  lemma ReverseTwiceOther(t: Theme)
    requires t.theme != "" && t.theme != Dark && t.theme != Light
    ensures Reversed(Reversed(t).value) == Ok(Theme(Light))
    ensures Reversed(Reversed(t).value) != Ok(t)
  {
  }

  /** After `set`, `fromExisting` finds the theme that was set, whether or not it was saved. */
  lemma {:induction false} FromExistingAfterSet(env: Env, t: Theme, save: bool)
    requires t.theme != ""
    ensures FromExisting(AfterSet(env, t, save)) == Ok(t)
  {
  }

  /** The saved theme alone decides when the attribute is unset, whatever the system prefers. */
  lemma {:induction false} SavedThemeBeatsSystem(env: Env, saved: string)
    requires env.dataMode == "" && saved != ""
    ensures FromExisting(env.(session := env.session[ThemeKey := saved])) == Ok(Theme(saved))
  {
  }

  /**
   * `main` leaves sessionStorage alone and always leaves a non-empty `data-mode`:
   * "dark" on the landing paths, the resolved theme elsewhere.
   */
  lemma {:induction false} MainRule(env: Env, pathname: string)
    ensures AfterMain(env, pathname).session == env.session
    ensures AfterMain(env, pathname).matchingQueries == env.matchingQueries
    ensures pathname in LandingPaths ==> AfterMain(env, pathname).dataMode == Dark
    ensures pathname !in LandingPaths ==> AfterMain(env, pathname).dataMode == FromExisting(env).value.theme
    ensures AfterMain(env, pathname).dataMode != ""
  {
  }

  /** Running `main` a second time on the same page changes nothing. */
  lemma {:induction false} MainIdempotent(env: Env, pathname: string)
    ensures AfterMain(AfterMain(env, pathname), pathname) == AfterMain(env, pathname)
  {
    var once := AfterMain(env, pathname);
    MainRule(env, pathname);
    if pathname !in LandingPaths {
      FromExistingAfterSet(env, FromExisting(env).value, false);
    }
  }

  /** The root element and the storage the Theme code writes to. */
  class Root {
    var dataMode: string
    var session: map<string, string>
    const matchingQueries: set<string>

    constructor (dataMode: string, session: map<string, string>, matchingQueries: set<string>)
      ensures Snapshot() == Env(dataMode, session, matchingQueries)
    {
      this.dataMode := dataMode;
      this.session := session;
      this.matchingQueries := matchingQueries;
    }

    function Snapshot(): Env
      reads this
    {
      Env(dataMode, session, matchingQueries)
    }

    /**
     * `t.set(save)`: writes `data-mode`, saves to sessionStorage only when
     * `save` holds, and returns the same Theme.
     */
    method Set(t: Theme, save: bool) returns (r: Theme)
      modifies this
      ensures r == t
      ensures dataMode == t.theme
      ensures session == if save then old(session)[ThemeKey := t.theme] else old(session)
      ensures Snapshot() == AfterSet(old(Snapshot()), t, save)
    {
      dataMode := t.theme;
      if save {
        session := session[ThemeKey := t.theme];
      }
      r := t;
    }

    /** `t.reverse(save)`: a new Theme with the opposite name, set on the page. */
    method Reverse(t: Theme, save: bool) returns (r: Result<Theme>)
      modifies this
      ensures r == Reversed(t)
      ensures r.Ok? ==> Snapshot() == AfterSet(old(Snapshot()), r.value, save)
      ensures r.Err? ==> Snapshot() == old(Snapshot())
    {
      if t.theme == "" {
        return Err("must set theme to reverse it");
      }
      var made := NewTheme(Opposite(t.theme));
      var applied := Set(made.value, save);
      r := Ok(applied);
    }

    /** `main()`'s theme rule for the given `location.pathname`. */
    method ApplyMain(pathname: string)
      modifies this
      ensures Snapshot() == AfterMain(old(Snapshot()), pathname)
    {
      if pathname !in LandingPaths {
        var existing := FromExisting(Snapshot());
        var _ := Set(existing.value, false);
      } else {
        var _ := Set(Theme(Dark), false);
      }
    }
  }
}

=== FILE: wrappers.dfy ===
/** Option and Result values, standing for JavaScript's `undefined` and for thrown errors. */
module Wrappers {

  datatype Option<+T> = None | Some(value: T)

  /** A computation that either produces a value or throws an Error with a message. */
  datatype Result<+T> = Ok(value: T) | Err(message: string)
}
